=== FILE: README.md ===
# Disaster-relief service layer, in Dafny

This project models the service layer of a disaster-relief REST backend. Twelve service classes enforce the business rules over the
database:

- **Missions.** Administrators create missions with a slot count. Approved volunteers apply to them; approving an application takes a
  slot.
- **Collection points.** Points publish needs per item type. People donate items to a point; registering the delivery adds each item's
  quantity to the point's matching active needs, capped at what was needed.
- **News and people.** Administrators publish news with ordered images, one of them the principal image. People, their profiles and
  their addresses carry uniqueness rules: one volunteer record per person, unique CPF/email, unique profile names, one principal
  image per news item and one principal address per person.

Every public method of the modelled services is a pure function from a `Store` and the request to a `Result`. The `Store` is an
immutable record of finite maps keyed by id, plus the reference tables (categories, item types, cities). The three exception kinds the
services throw become the three `Error` values:

- `ModelNotFoundException` becomes `NotFound`;
- `InvalidArgumentException` becomes `InvalidArgument`;
- `RuntimeException` becomes `Conflict`.

A failed operation returns no store, which is how `DB::transaction` rolls back.

Ids come from one auto-increment counter, `proximoId`. `Fresco(s)` says that every row's id lies below that counter, so an insert never
overwrites a row. Every create proves that it keeps `Fresco`.

Quantities stored as `decimal(10,2)` are integer hundredths (`Centesimos`). The current time is an integer parameter `now` wherever it
decides an outcome.

Modules, one per file:

| module | file | what |
|---|---|---|
| `Outcomes` | outcomes.dfy | `Error`, `Option`, `Result` |
| `Sets` | sets.dfy | minimum, maximum and the scan-and-filter that stands for a `where(...)->get()` query |
| `Store` | store.dfy | the entities, the `Store`, PHP truthiness (`Preenchida`), the ADMIN check, and the store-wide invariants |
| `MissaoService` … `PerfilService` | one `*_service.dfy` each | one service class each |

The store-wide invariants the services are proved to keep are these:

- `CapacidadeOk`: 0 <= vagas_preenchidas <= vagas_totais for every mission.
- `RecebidaOk`: quantidade_recebida <= quantidade_necessaria for every need.
- `ItensPositivos`: every donation item has a positive quantity.
- `ImagemPrincipalUnica`: at most one principal image per news item.
- `EnderecoPrincipalUnico`: at most one principal address per person.
- `UmVoluntarioPorPessoa`: at most one volunteer record per person.
- `CandidaturaUnicaPorPar`: at most one application per (mission, volunteer) pair.
- `ContatosUnicos`: no two people share a filled-in CPF, nor a filled-in email.
- `NomesPerfilUnicos`: profile names are unique.
- `PontosNaCidadePadrao`: every collection point lies in city 1.

Several of these hold only because the callers cooperate. In each such case the code writes a supplied value without checking it.
Where that happens, the contract says which input it needs, and a lemma exhibits the store that the unchecked write produces:

- `MissaoService.CriarAceitaPreenchidasAcimaDoTotal`
- `MissaoService.AtualizarVagasAceitaNegativo`
- `NecessidadePontoService.CriarAceitaRecebidaAcimaDaNecessaria`
- `NecessidadePontoService.AtualizarQuantidadeRecebidaAceitaNegativo`
- `ImagemNoticiaService.AtualizarMoverPrincipalQuebraUnicidade`
- `EnderecoService.AtualizarMoverPrincipalQuebraUnicidade`

The slot counter of a mission is not the number of approved applications, and the model does not pretend it is. Approving an
application again takes a second slot. Rejecting or completing an approved application keeps its slot, and so does deleting the
person behind it. The lemmas `ReaprovarOcupaOutraVaga`, `RejeitarDepoisExcluirNaoLiberaVaga` and `PessoaService.ExcluirNaoLiberaVagas`
state these behaviours.

Where the code and its description differ, the model follows the code:

- `registrarEntrega` accepts a cancelled donation. Only 'entregue' is refused. `CancelarDepoisEntregar` shows this.
- `DoacaoService.atualizar` writes any status, including 'pendente' over 'entregue'. A delivered donation can therefore be delivered,
  and counted into the needs, twice. `AtualizarReabreDoacaoEntregue` shows this.
- `ItemDoacaoService.criar` does not look at the donation's status. `CriarAceitaDoacaoEntregue` shows that an item can be attached to a
  delivered donation, and `AtualizarMoveParaDoacaoEntregue` shows that `atualizar` can move an item onto one.

## Model

| member | source | states |
|---|---|---|
| MissaoService.ListarDisponiveis | src/app/Services/MissaoService.php:69-75 | exactly the missions with a free slot (vagas_preenchidas < vagas_totais) whose status is 'ativa' |
| MissaoService.Criar | src/app/Services/MissaoService.php:94-142 | NotFound iff the category, city 1 or the admin is missing; InvalidArgument iff they exist and the admin's profile is not ADMIN, dt_inicio < now, dt_fim < dt_inicio or vagas_totais <= 0; otherwise one new mission in city 1, credited to the admin, with the defaults vagas_preenchidas 0 and status 'ativa', and nothing else changed; capacity is kept when the supplied vagas_preenchidas lies in 0..vagas_totais |
| MissaoService.Atualizar | src/app/Services/MissaoService.php:147-187 | each check runs against the merged row (incoming value, else stored value); a new dt_fim is compared with the merged dt_inicio; InvalidArgument iff the merged vagas_preenchidas exceeds the merged vagas_totais (or another check fails); on success every column of the written row is the supplied value or else the stored one (dt_fim included), the row satisfies vagas_preenchidas <= vagas_totais, a supplied city becomes city 1, the creator is kept, and capacity is kept for a non-negative vagas_preenchidas |
| MissaoService.AtualizarVagas | src/app/Services/MissaoService.php:192-206 | InvalidArgument iff the value is above vagas_totais; otherwise exactly that value is stored and nothing else changes |
| MissaoService.Finalizar | src/app/Services/MissaoService.php:211-219 | status becomes 'finalizada'; both slot counters and every other row are untouched; capacity kept |
| MissaoService.Cancelar | src/app/Services/MissaoService.php:224-232 | status becomes 'cancelada'; both slot counters and every other row are untouched; capacity kept |
| MissaoService.Excluir | src/app/Services/MissaoService.php:237-247 | Conflict iff some application references the mission; otherwise only that mission is removed |
| MissaoService.CriarAceitaPreenchidasAcimaDoTotal | src/app/Services/MissaoService.php:133-141 | a supplied vagas_preenchidas above vagas_totais is stored by criar and breaks the capacity bound |
| MissaoService.AtualizarVagasAceitaNegativo | src/app/Services/MissaoService.php:192-206 | a negative vagas_preenchidas is accepted and breaks the capacity bound |
| CandidaturaMissaoService.Criar | src/app/Services/CandidaturaMissaoService.php:68-100 | NotFound iff the mission or the volunteer is missing; InvalidArgument iff the volunteer is not 'aprovado' or the pair already applied; otherwise one new application with status 'pendente' by default; no mission changes; pair uniqueness and capacity kept |
| CandidaturaMissaoService.Aprovar | src/app/Services/CandidaturaMissaoService.php:135-155 | Conflict iff the mission has no free slot; otherwise status 'aprovada' and that mission's vagas_preenchidas goes up by exactly one while staying <= vagas_totais; capacity kept |
| CandidaturaMissaoService.Rejeitar | src/app/Services/CandidaturaMissaoService.php:160-173 | status 'rejeitada'; the note is written only when truthy; no mission changes |
| CandidaturaMissaoService.Concluir | src/app/Services/CandidaturaMissaoService.php:178-202 | InvalidArgument iff a rating outside 1..5 is given; status 'concluida', rating written when given, note when truthy; no mission changes |
| CandidaturaMissaoService.Excluir | src/app/Services/CandidaturaMissaoService.php:207-221 | removes the application; the mission's counter goes down by one only when the application was 'aprovada' and the counter is positive, so it never turns negative; no other column or mission changes; capacity kept |
| CandidaturaMissaoService.ReaprovarOcupaOutraVaga | src/app/Services/CandidaturaMissaoService.php:135-155 | approving an already approved application succeeds while a slot is free and takes another slot |
| CandidaturaMissaoService.RejeitarDepoisExcluirNaoLiberaVaga | src/app/Services/CandidaturaMissaoService.php:135-221 | approve, reject, delete: the application is gone but the mission's counter stays one higher |
| CandidaturaMissaoService.AprovacaoDoVoluntarioLiberaCandidatura | src/app/Services/CandidaturaMissaoService.php:82-84 | a volunteer approved through the volunteer service can apply to a mission it has not applied to; a rejected one is refused with InvalidArgument |
| NecessidadePontoService.Criar | app/Services/NecessidadePontoService.php:68-93 | NotFound iff the point or the item type is missing; InvalidArgument iff quantidade_necessaria is missing or <= 0; defaults recebida 0, prioridade 'media', ativo true; the bound is kept when the supplied recebida is within it |
| NecessidadePontoService.Atualizar | app/Services/NecessidadePontoService.php:98-127 | NotFound iff the need, a supplied point or a supplied type is missing; InvalidArgument iff the merged necessaria <= 0 or the merged recebida exceeds it; on success every column of the written row is the supplied value or else the stored one, the row is within its bound, and nothing else changes |
| NecessidadePontoService.AtualizarQuantidadeRecebida | app/Services/NecessidadePontoService.php:132-146 | InvalidArgument iff the value exceeds quantidade_necessaria; otherwise exactly that value is stored; the bound is kept |
| NecessidadePontoService.DefinirAtivoIdempotente | app/Services/NecessidadePontoService.php:151-166 | setting ativo twice equals setting it once |
| NecessidadePontoService.Ativar | app/Services/NecessidadePontoService.php:151-156 | the need becomes active and nothing else changes: no other column, row or table; bound kept |
| NecessidadePontoService.Desativar | app/Services/NecessidadePontoService.php:161-166 | the need becomes inactive and nothing else changes: no other column, row or table; bound kept |
| NecessidadePontoService.Excluir | app/Services/NecessidadePontoService.php:171-175 | removes only that need, with no dependency check |
| NecessidadePontoService.CriarAceitaRecebidaAcimaDaNecessaria | app/Services/NecessidadePontoService.php:84-92 | a supplied quantidade_recebida above quantidade_necessaria is stored and breaks the bound |
| NecessidadePontoService.AtualizarQuantidadeRecebidaAceitaNegativo | app/Services/NecessidadePontoService.php:132-146 | a negative quantidade_recebida is stored |
| DoacaoService.InserirItens | app/Services/DoacaoService.php:100-118 | fails iff some item names an unknown type or a missing or non-positive quantity, with the error of the FIRST such item; otherwise item i is stored at id base+i with the request's type and quantity and no other row changes |
| DoacaoService.GravarDoacao | app/Services/DoacaoService.php:97-121 | all or nothing: on error no store at all; on success the donation takes the counter, its items take the next ids, and freshness and positive quantities are kept |
| DoacaoService.GravarDoacaoItens | app/Services/DoacaoService.php:100-118 | after the transaction, in the model's id allocation, id d+1+i holds item i of the request for donation d, and pre-existing items are unchanged |
| DoacaoService.Criar | app/Services/DoacaoService.php:71-122 | NotFound iff the person or the point is missing or the first bad item has an unknown type; InvalidArgument iff the point is inactive, the list is empty or the first bad item has a bad quantity; never Conflict; status 'pendente' by default |
| DoacaoService.Atualizar | app/Services/DoacaoService.php:127-150 | a supplied person or point must exist and a supplied point must be active; the status is written as given |
| DoacaoService.Cancelar | app/Services/DoacaoService.php:195-205 | Conflict iff the donation is 'entregue'; otherwise status 'cancelada' |
| DoacaoService.Excluir | app/Services/DoacaoService.php:210-219 | Conflict iff 'entregue'; otherwise the donation and, by the cascading foreign key, exactly its items are removed |
| DoacaoService.Receber | app/Services/DoacaoService.php:177-183 | a need receiving q ends at min(recebida + q, necessaria): never above the bound, never lower for q >= 0 |
| DoacaoService.Entregar | app/Services/DoacaoService.php:167-185 | applying the donation's items keeps the set of needs, changes only quantidade_recebida, leaves every need no item feeds untouched, and keeps each need's bound |
| DoacaoService.EntregarSomaLimitada | app/Services/DoacaoService.php:167-185 | with non-negative quantities, a need fed by the items up to id k ends at min(recebida + their total quantity of its type, necessaria); the cap applied item by item equals the cap applied once to the sum |
| DoacaoService.RegistrarEntrega | app/Services/DoacaoService.php:155-190 | Conflict iff already 'entregue' (a cancelled donation is accepted); status becomes 'entregue'; only needs' quantidade_recebida moves; needs no item feeds are untouched; the bound is kept |
| DoacaoService.EntregaSomaQuantidades | app/Services/DoacaoService.php:155-190 | after delivery an active need of the point holds min(recebida + everything the donation brought of its type, necessaria) |
| DoacaoService.RegistrarEntregaNaoDiminui | app/Services/DoacaoService.php:155-190 | with positive item quantities and every need within its bound, a delivery never lowers any need's quantidade_recebida |
| DoacaoService.CancelarDepoisEntregar | app/Services/DoacaoService.php:155-205 | a donation that is not delivered can be cancelled and then still delivered: cancelar never sets 'entregue', and registrarEntrega refuses only 'entregue' |
| DoacaoService.AtualizarReabreDoacaoEntregue | app/Services/DoacaoService.php:127-161 | a delivered donation can be set back to 'pendente' by atualizar and is then deliverable again |
| ItemDoacaoService.ListarPorDoacao | src/app/Services/ItemDoacaoService.php:16-25 | NotFound iff the donation is missing; otherwise exactly its items |
| ItemDoacaoService.Criar | src/app/Services/ItemDoacaoService.php:44-62 | NotFound iff the donation or the type is missing; InvalidArgument iff the quantity is missing or <= 0; positive quantities kept |
| ItemDoacaoService.Atualizar | src/app/Services/ItemDoacaoService.php:67-93 | NotFound for a missing item, donation or type; InvalidArgument for a supplied quantity <= 0; Conflict iff the item's current donation is delivered; otherwise only that item changes |
| ItemDoacaoService.Excluir | src/app/Services/ItemDoacaoService.php:98-108 | Conflict iff the item's donation is delivered; otherwise only that item goes |
| ItemDoacaoService.EdicaoPreservaDoacaoEntregue | src/app/Services/ItemDoacaoService.php:67-108 | no atualizar or excluir changes or removes an item of a delivered donation |
| ItemDoacaoService.CriarAceitaDoacaoEntregue | src/app/Services/ItemDoacaoService.php:44-62 | criar attaches a new item to a delivered donation |
| ItemDoacaoService.AtualizarMoveParaDoacaoEntregue | src/app/Services/ItemDoacaoService.php:67-93 | atualizar moves an item of a pending donation onto a delivered one, since only the item's current donation is checked |
| ImagemNoticiaService.DesmarcarPrincipais | src/app/Services/ImagemNoticiaService.php:65-69 | every image of that news item, except the one spared, loses the principal flag; images of other news items are unchanged |
| ImagemNoticiaService.ProximaOrdem | src/app/Services/ImagemNoticiaService.php:72-76 | greater than every order in use by the news item; 1 for its first image, else one past some image's order |
| ImagemNoticiaService.ComNovaImagem | src/app/Services/ImagemNoticiaService.php:57-81 | the new image gets the given order, or else one past the largest order its news item uses (1 for its first image); a principal image leaves it the only principal image of its news item |
| ImagemNoticiaService.Criar | src/app/Services/ImagemNoticiaService.php:57-81 | NotFound iff the news item is missing; otherwise one new image as above; principal uniqueness and freshness kept |
| ImagemNoticiaService.Atualizar | src/app/Services/ImagemNoticiaService.php:86-100 | raising the flag lowers it on the other images of the image's current news item; principal uniqueness kept when the image stays on its news item |
| ImagemNoticiaService.DefinirComoPrincipal | src/app/Services/ImagemNoticiaService.php:105-117 | the image becomes the only principal image of its news item; other news items' images are untouched |
| ImagemNoticiaService.Reordenar | src/app/Services/ImagemNoticiaService.php:122-135 | NotFound iff the news item is missing; only listed images of that news item change, and only their order |
| ImagemNoticiaService.BuscarPrincipal | src/app/Services/ImagemNoticiaService.php:43-52 | NotFound iff the news item is missing; otherwise a principal image of it, or none exactly when it has none; under uniqueness, the one |
| ImagemNoticiaService.AtualizarMoverPrincipalQuebraUnicidade | src/app/Services/ImagemNoticiaService.php:86-100 | moving a principal image onto a news item that has one leaves it with two |
| EnderecoService.ListarPorPessoa | src/app/Services/EnderecoService.php:17-24 | NotFound iff the person is missing; otherwise exactly their addresses |
| EnderecoService.DesmarcarPrincipais | src/app/Services/EnderecoService.php:73-77 | every address of that person, except the one spared, loses the principal flag; other people's addresses are unchanged |
| EnderecoService.ComNovoEndereco | src/app/Services/EnderecoService.php:57-80 | the new address is in city 1; a principal address leaves it the only principal address of its person |
| EnderecoService.Criar | src/app/Services/EnderecoService.php:57-80 | NotFound iff the person or city 1 is missing; otherwise one new address as above; principal uniqueness and freshness kept |
| EnderecoService.Atualizar | src/app/Services/EnderecoService.php:85-109 | NotFound iff the address or city 1 is missing; a supplied city becomes 1; raising the flag lowers it on the person's other addresses; uniqueness kept when the person is unchanged |
| EnderecoService.DefinirComoPrincipal | src/app/Services/EnderecoService.php:114-126 | the address becomes the only principal address of its person; other people's addresses are untouched |
| EnderecoService.Excluir | src/app/Services/EnderecoService.php:131-135 | removes only that address |
| EnderecoService.AtualizarMoverPrincipalQuebraUnicidade | src/app/Services/EnderecoService.php:85-109 | moving a principal address to a person who has one leaves that person with two |
| VoluntarioService.Criar | app/Services/VoluntarioService.php:61-77 | NotFound iff the person is missing; InvalidArgument iff the person already has a volunteer record; the new record keeps the given note, with status 'pendente' by default; one record per person kept |
| VoluntarioService.Atualizar | app/Services/VoluntarioService.php:82-100 | moving the record to another person requires that person to exist and to have no record; the supplied columns are written, and a note sent as null clears the stored one; one record per person kept |
| VoluntarioService.Aprovar | app/Services/VoluntarioService.php:105-113 | status becomes 'aprovado'; nothing else changes |
| VoluntarioService.Rejeitar | app/Services/VoluntarioService.php:118-129 | status becomes 'rejeitado'; the note is replaced only by a truthy one |
| VoluntarioService.Excluir | app/Services/VoluntarioService.php:134-144 | Conflict iff some application references the volunteer; otherwise only that record goes |
| PessoaService.Criar | src/app/Services/PessoaService.php:72-104 | NotFound iff the profile is missing; InvalidArgument iff a filled-in CPF or email is already held, or the birth date is after now; ativo true by default |
| PessoaService.CriarPreservaContatos | src/app/Services/PessoaService.php:79-91 | a successful criar keeps CPF and email unique |
| PessoaService.Atualizar | src/app/Services/PessoaService.php:109-140 | a supplied profile must exist; a supplied CPF or email is checked only when it differs from the current one; a future birth date is refused; a birth date sent as null is not checked and clears the stored one |
| PessoaService.AtualizarPreservaContatos | src/app/Services/PessoaService.php:117-129 | a successful atualizar keeps CPF and email unique |
| PessoaService.DefinirAtivo | src/app/Services/PessoaService.php:145-160 | ativar/desativar set exactly the ativo flag of that person |
| PessoaService.DefinirAtivoIdempotente | src/app/Services/PessoaService.php:145-160 | setting the flag twice equals setting it once |
| PessoaService.SemPessoa | src/database/migrations/2025_11_15_200415_create_voluntarios_table.php:16 | the person goes, and so do exactly their volunteer records and those records' applications; every other row stays |
| PessoaService.Excluir | src/app/Services/PessoaService.php:165-188 | Conflict iff the person has donations, created missions, created news or created points; otherwise the cascade above; capacity, contact uniqueness, one volunteer per person and pair uniqueness kept |
| PessoaService.ExcluirNaoLiberaVagas | src/app/Services/PessoaService.php:165-188 | deleting a person removes their applications without giving back any mission slot |
| NoticiaService.ListarDestaque | src/app/Services/NoticiaService.php:48-54 | exactly the news items that are featured and 'publicada' |
| NoticiaService.Criar | src/app/Services/NoticiaService.php:93-118 | NotFound iff the category or the author is missing; InvalidArgument iff the author is not ADMIN; defaults 'rascunho', not featured, 0 views |
| NoticiaService.Publicar | src/app/Services/NoticiaService.php:140-149 | status becomes 'publicada'; nothing else changes |
| NoticiaService.PublicarIdempotente | src/app/Services/NoticiaService.php:140-149 | publishing twice equals publishing once |
| NoticiaService.DefinirDestaque | src/app/Services/NoticiaService.php:154-162 | the featured flag becomes exactly the given value |
| NoticiaService.DefinirDestaqueDesfeito | src/app/Services/NoticiaService.php:154-162 | setting the featured flag back to its old value gives back exactly the original store |
| NoticiaService.IncrementarVisualizacoes | src/app/Services/NoticiaService.php:167-172 | views go up by exactly one; nothing else changes |
| NoticiaService.VisualizarSoma | src/app/Services/NoticiaService.php:167-172 | n views in a row add exactly n |
| NoticiaService.Excluir | src/app/Services/NoticiaService.php:177-187 | Conflict iff the news item has images; otherwise only it goes |
| PontoColetaService.ListarAtivos | src/app/Services/PontoColetaService.php:24-29 | exactly the active points |
| PontoColetaService.Criar | src/app/Services/PontoColetaService.php:58-84 | NotFound iff city 1 or the admin is missing; InvalidArgument iff the admin is not ADMIN; the point is in city 1, credited to the admin, active by default; every point stays in city 1 |
| PontoColetaService.Atualizar | src/app/Services/PontoColetaService.php:89-100 | a supplied city becomes city 1; ativo written when given; creator kept; every point stays in city 1 |
| PontoColetaService.DefinirAtivo | src/app/Services/PontoColetaService.php:105-120 | ativar/desativar set exactly the ativo flag of that point; every point stays in city 1 |
| PontoColetaService.DefinirAtivoIdempotente | src/app/Services/PontoColetaService.php:105-120 | setting the flag twice equals setting it once |
| PontoColetaService.Excluir | src/app/Services/PontoColetaService.php:125-140 | Conflict iff the point has needs or donations; otherwise only it goes, and no need or donation is left pointing at it; every point stays in city 1 |
| PerfilService.BuscarPorId | src/app/Services/PerfilService.php:22-31 | NotFound iff absent; otherwise that profile |
| PerfilService.Criar | src/app/Services/PerfilService.php:44-52 | InvalidArgument iff the name is taken; name uniqueness kept |
| PerfilService.CriarDepoisBuscar | src/app/Services/PerfilService.php:22-52 | a created profile is found under its id, and creating the same name again is refused |
| PerfilService.Atualizar | src/app/Services/PerfilService.php:57-70 | the name is checked only when it changes; name uniqueness kept |
| PerfilService.Excluir | src/app/Services/PerfilService.php:75-84 | Conflict iff some person holds the profile; otherwise only it goes |

## Left out

- Listing and lookup methods that are not among the modelled operations (`listar`, `listarPor*`, `buscarPorId` outside PerfilService,
  `EnderecoService.buscarPrincipal`) are not modelled. The same goes for `CandidaturaMissaoService.atualizar`,
  `NoticiaService.atualizar`, `ImagemNoticiaService.excluir` and every other service method outside the listed operations.
- Timestamps (`dt_atualizacao`, `dt_entrega`, `dt_doacao`, `dt_publicacao`, …) are not modelled. `now` is kept only where it decides an
  outcome: a mission's start date and a person's birth date.
- Free-text and presentation columns (names, descriptions, titles, coordinates, phones, `obs` of items) are not modelled. Neither are
  eager loading (`with`, `load`, `fresh`) or the shape of the returned objects.
- Concurrency is not modelled. This includes the check-then-increment race in `aprovar` and transaction isolation. Operations run one
  at a time, and a failed transaction returns no store.
- Database constraints are not modelled as checks. These are the unique keys on CPF, email, the (mission, volunteer) pair, the
  (point, type) need and `voluntarios.pessoa_id`, plus the foreign keys. The model holds only the checks the services make. A
  reference to a missing row reads as NotFound, as "not ADMIN" or as "not delivered".
- Cascades run only where a modelled delete triggers them: donation items with their donation, and volunteer records and their
  applications with their person. The addresses migration is not part of this model, so deleting a person leaves their addresses.
- `atualizarQuantidadeRecebida` takes a PHP `float`. The model takes integer hundredths, like the column.
- PessoaService.Atualizar: a CPF or email supplied as an explicit `null`, which the code writes without checking, is not modelled. `None`
  means the column was not sent.
- PontoColetaService.Atualizar: a supplied `admin_criador_id` or text column is not modelled. No caller sends one.
- VoluntarioService.Atualizar: the code compares pessoa_id with `!==`. The model compares the values as integers, so an id sent as a
  string that equals the current one is treated as unchanged.
- ImagemNoticiaService.BuscarPrincipal: the query has no ORDER BY, so the database may return any principal image. The model returns
  the one with the lowest id, which is the only one while uniqueness holds.
- DoacaoService.Entregar: the code visits the donation's items in the order the database returns them. The model visits them by
  ascending id. `EntregarSomaLimitada` shows that the result depends only on each type's total quantity, which the visiting order does not change.
- The `admin->perfil->nome` check treats a person whose profile row is missing as "not ADMIN" (InvalidArgument). The code would fail
  on a null profile instead.
- NecessidadePontoService.Atualizar: a quantidade_recebida or prioridade sent as explicit `null` is not modelled. The code checks the
  stored value, then the NOT NULL column refuses the write with a database error, which is none of the three `Error` values. `None`
  means the column was not sent.
- Ids: the model draws every id from one counter, `proximoId`, shared by all tables, and a failed transaction leaves it where it was.
  The database keeps one auto-increment counter per table, and a rolled-back insert still uses up its id. Ids such as "d+1+i for item
  i" therefore describe the model's allocation, not the ids the database hands out. Only freshness (a new id is unused) carries over.
- ImagemNoticiaService.Atualizar: an `ordem` sent as explicit `null` is not modelled. The NOT NULL column refuses it with a database
  error, which is none of the three `Error` values. `None` means the column was not sent.

=== FILE: candidatura_missao_service.dfy ===
/** CandidaturaMissaoService: a volunteer's application to a mission, and the
    slot counter of that mission. Approval is the only step that takes a slot;
    deletion of an application that is still 'aprovada' is the only step that
    gives one back. Rejecting or completing an approved application keeps its
    slot taken, so vagas_preenchidas is not the number of approved
    applications; what the service keeps is 0 <= vagas_preenchidas <= vagas_totais. */
module CandidaturaMissaoService {
  import opened Outcomes
  import opened Store
  import VoluntarioService

  datatype DadosCandidatura = DadosCandidatura(missaoId: Id, voluntarioId: Id, status: Option<string>)

  /** Some application already links this volunteer to this mission. */
  predicate JaCandidatado(s: Store, missaoId: Id, voluntarioId: Id) {
    exists c :: c in s.candidaturas
      && s.candidaturas[c].missaoId == missaoId
      && s.candidaturas[c].voluntarioId == voluntarioId
  }

  /** criar: the mission and the volunteer must exist, the volunteer must be
      'aprovado', and the pair must be new. The application starts 'pendente'
      unless a status is supplied; no mission is touched. */
  function Criar(s: Store, dados: DadosCandidatura): (r: Result<Novo>)
    ensures r == Err(NotFound) <==> dados.missaoId !in s.missoes || dados.voluntarioId !in s.voluntarios
    ensures r == Err(InvalidArgument) <==>
      && dados.missaoId in s.missoes
      && dados.voluntarioId in s.voluntarios
      && (|| s.voluntarios[dados.voluntarioId].status != VOLUNTARIO_APROVADO
          || exists c :: c in s.candidaturas
               && s.candidaturas[c].missaoId == dados.missaoId
               && s.candidaturas[c].voluntarioId == dados.voluntarioId)
    ensures r.Ok? ==>
      && SoMudaLinha(s.candidaturas, r.value.store.candidaturas, r.value.id)
      && r.value.store == s.(candidaturas := r.value.store.candidaturas, proximoId := r.value.store.proximoId)
      && r.value.store.candidaturas[r.value.id]
         == Candidatura(dados.missaoId, dados.voluntarioId, dados.status.GetOr(CANDIDATURA_PENDENTE), None, None)
    ensures r.Ok? && Fresco(s) ==> r.value.id !in s.candidaturas && Fresco(r.value.store)
    ensures r.Ok? && CandidaturaUnicaPorPar(s) ==> CandidaturaUnicaPorPar(r.value.store)
    ensures r.Ok? && CapacidadeOk(s) ==> CapacidadeOk(r.value.store)
  {
    if dados.missaoId !in s.missoes then Err(NotFound)
    else if dados.voluntarioId !in s.voluntarios then Err(NotFound)
    else if s.voluntarios[dados.voluntarioId].status != VOLUNTARIO_APROVADO then Err(InvalidArgument)
    else if JaCandidatado(s, dados.missaoId, dados.voluntarioId) then Err(InvalidArgument)
    else
      var id := s.proximoId;
      var c := Candidatura(dados.missaoId, dados.voluntarioId, dados.status.GetOr(CANDIDATURA_PENDENTE), None, None);
      Ok(Novo(s.(candidaturas := s.candidaturas[id := c], proximoId := id + 1), id))
  }

  /** aprovar: refused with Conflict when the mission has no free slot;
      otherwise the application becomes 'aprovada' and the mission's
      vagas_preenchidas goes up by exactly one. The application's own status
      is never looked at, so approving it again takes another slot. */
  function Aprovar(s: Store, id: Id): (r: Result<Store>)
    ensures r == Err(NotFound) <==> id !in s.candidaturas || s.candidaturas[id].missaoId !in s.missoes
    ensures r == Err(Conflict) <==>
      && id in s.candidaturas
      && s.candidaturas[id].missaoId in s.missoes
      && s.missoes[s.candidaturas[id].missaoId].vagasPreenchidas >= s.missoes[s.candidaturas[id].missaoId].vagasTotais
    ensures r.Ok? ==>
      var c := s.candidaturas[id];
      var m := s.missoes[c.missaoId];
      && SoMudaLinha(s.candidaturas, r.value.candidaturas, id)
      && SoMudaLinha(s.missoes, r.value.missoes, c.missaoId)
      && r.value == s.(candidaturas := r.value.candidaturas, missoes := r.value.missoes)
      && r.value.candidaturas[id] == c.(status := CANDIDATURA_APROVADA)
      && r.value.missoes[c.missaoId].vagasPreenchidas == m.vagasPreenchidas + 1
      && r.value.missoes[c.missaoId].vagasPreenchidas <= r.value.missoes[c.missaoId].vagasTotais
      && r.value.missoes[c.missaoId] == m.(vagasPreenchidas := m.vagasPreenchidas + 1)
    ensures r.Ok? && CapacidadeOk(s) ==> CapacidadeOk(r.value)
  {
    if id !in s.candidaturas then Err(NotFound)
    else
      var c := s.candidaturas[id];
      if c.missaoId !in s.missoes then Err(NotFound)
      else
        var m := s.missoes[c.missaoId];
        if m.vagasPreenchidas >= m.vagasTotais then Err(Conflict)
        else Ok(s.(
          candidaturas := s.candidaturas[id := c.(status := CANDIDATURA_APROVADA)],
          missoes := s.missoes[c.missaoId := m.(vagasPreenchidas := m.vagasPreenchidas + 1)]))
  }

  /** rejeitar: status becomes 'rejeitada'; the note is written only when it
      is truthy. No mission changes, even if the application held a slot. */
  function Rejeitar(s: Store, id: Id, obs: Option<string>): (r: Result<Store>)
    ensures r == Err(NotFound) <==> id !in s.candidaturas
    ensures r.Ok? ==>
      var c := s.candidaturas[id];
      && SoMudaLinha(s.candidaturas, r.value.candidaturas, id)
      && r.value == s.(candidaturas := r.value.candidaturas)
      && r.value.candidaturas[id].status == CANDIDATURA_REJEITADA
      && r.value.candidaturas[id].missaoId == c.missaoId
      && r.value.candidaturas[id].voluntarioId == c.voluntarioId
      && r.value.candidaturas[id].avaliacao == c.avaliacao
      && r.value.candidaturas[id].obsAvaliacao == (if Preenchida(obs) then obs else c.obsAvaliacao)
    ensures r.Ok? && CapacidadeOk(s) ==> CapacidadeOk(r.value)
  {
    if id !in s.candidaturas then Err(NotFound)
    else
      var c := s.candidaturas[id];
      var c' := c.(status := CANDIDATURA_REJEITADA, obsAvaliacao := if Preenchida(obs) then obs else c.obsAvaliacao);
      Ok(s.(candidaturas := s.candidaturas[id := c']))
  }

  /** concluir: a rating, when given, must lie in 1..5. Status becomes
      'concluida'; the rating is written when given and the note when truthy.
      No mission changes: the slot stays taken. */
  function Concluir(s: Store, id: Id, avaliacao: Option<int>, obs: Option<string>): (r: Result<Store>)
    ensures r == Err(NotFound) <==> id !in s.candidaturas
    ensures r == Err(InvalidArgument) <==>
      id in s.candidaturas && avaliacao.Some? && (avaliacao.value < 1 || avaliacao.value > 5)
    ensures r.Ok? ==>
      var c := s.candidaturas[id];
      && SoMudaLinha(s.candidaturas, r.value.candidaturas, id)
      && r.value == s.(candidaturas := r.value.candidaturas)
      && r.value.candidaturas[id].status == CANDIDATURA_CONCLUIDA
      && r.value.candidaturas[id].missaoId == c.missaoId
      && r.value.candidaturas[id].voluntarioId == c.voluntarioId
      && r.value.candidaturas[id].avaliacao == (if avaliacao.Some? then avaliacao else c.avaliacao)
      && (r.value.candidaturas[id].avaliacao.Some? && r.value.candidaturas[id].avaliacao != c.avaliacao
          ==> 1 <= r.value.candidaturas[id].avaliacao.value <= 5)
      && r.value.candidaturas[id].obsAvaliacao == (if Preenchida(obs) then obs else c.obsAvaliacao)
    ensures r.Ok? && CapacidadeOk(s) ==> CapacidadeOk(r.value)
  {
    if id !in s.candidaturas then Err(NotFound)
    else if avaliacao.Some? && (avaliacao.value < 1 || avaliacao.value > 5) then Err(InvalidArgument)
    else
      var c := s.candidaturas[id];
      var c' := c.(
        status := CANDIDATURA_CONCLUIDA,
        avaliacao := if avaliacao.Some? then avaliacao else c.avaliacao,
        obsAvaliacao := if Preenchida(obs) then obs else c.obsAvaliacao);
      Ok(s.(candidaturas := s.candidaturas[id := c']))
  }

  /** excluir: removes the application. Only if it was still 'aprovada' and
      its mission's vagas_preenchidas is positive does that counter go down by
      one, so the counter never becomes negative; in every other case no
      mission changes. */
  function Excluir(s: Store, id: Id): (r: Result<Store>)
    ensures r == Err(NotFound) <==> id !in s.candidaturas
    ensures r.Ok? ==>
      && SemLinha(s.candidaturas, r.value.candidaturas, id)
      && r.value == s.(candidaturas := r.value.candidaturas, missoes := r.value.missoes)
    ensures r.Ok? ==>
      var c := s.candidaturas[id];
      if c.status == CANDIDATURA_APROVADA && c.missaoId in s.missoes && s.missoes[c.missaoId].vagasPreenchidas > 0
      then
        && SoMudaLinha(s.missoes, r.value.missoes, c.missaoId)
        && r.value.missoes[c.missaoId].vagasPreenchidas == s.missoes[c.missaoId].vagasPreenchidas - 1 >= 0
        && r.value.missoes[c.missaoId].vagasTotais == s.missoes[c.missaoId].vagasTotais
        && r.value.missoes[c.missaoId] == s.missoes[c.missaoId].(vagasPreenchidas := s.missoes[c.missaoId].vagasPreenchidas - 1)
      else r.value.missoes == s.missoes
    ensures r.Ok? && CapacidadeOk(s) ==> CapacidadeOk(r.value)
  {
    if id !in s.candidaturas then Err(NotFound)
    else
      var c := s.candidaturas[id];
      var missoes :=
        if c.status == CANDIDATURA_APROVADA && c.missaoId in s.missoes && s.missoes[c.missaoId].vagasPreenchidas > 0
        then s.missoes[c.missaoId := s.missoes[c.missaoId].(vagasPreenchidas := s.missoes[c.missaoId].vagasPreenchidas - 1)]
        else s.missoes;
      Ok(s.(candidaturas := s.candidaturas - {id}, missoes := missoes))
  }

  // ---------------------------------------------------------------------
  // What the counter does NOT track.

  /** Approving an application that is already 'aprovada' succeeds whenever
      a slot is free and takes a second slot. */
  lemma ReaprovarOcupaOutraVaga(s: Store, id: Id)
    requires id in s.candidaturas && s.candidaturas[id].status == CANDIDATURA_APROVADA
    requires s.candidaturas[id].missaoId in s.missoes
    requires s.missoes[s.candidaturas[id].missaoId].vagasPreenchidas < s.missoes[s.candidaturas[id].missaoId].vagasTotais
    ensures Aprovar(s, id).Ok?
    ensures Aprovar(s, id).value.missoes[s.candidaturas[id].missaoId].vagasPreenchidas
      == s.missoes[s.candidaturas[id].missaoId].vagasPreenchidas + 1
  {
  }

  /** Approve, then reject, then delete: the slot taken by the approval is
      never given back, so after the three steps the counter is one higher
      than before although the application is gone. */
  lemma {:induction false} RejeitarDepoisExcluirNaoLiberaVaga(s: Store, id: Id, obs: Option<string>)
    requires id in s.candidaturas && s.candidaturas[id].missaoId in s.missoes
    requires s.missoes[s.candidaturas[id].missaoId].vagasPreenchidas < s.missoes[s.candidaturas[id].missaoId].vagasTotais
    ensures Aprovar(s, id).Ok?
    ensures Rejeitar(Aprovar(s, id).value, id, obs).Ok?
    ensures Excluir(Rejeitar(Aprovar(s, id).value, id, obs).value, id).Ok?
    ensures
      var m := s.candidaturas[id].missaoId;
      var s3 := Excluir(Rejeitar(Aprovar(s, id).value, id, obs).value, id).value;
      && id !in s3.candidaturas
      && m in s3.missoes
      && s3.missoes[m].vagasPreenchidas == s.missoes[m].vagasPreenchidas + 1
  {
    var m := s.candidaturas[id].missaoId;
    var s1 := Aprovar(s, id).value;
    assert s1.candidaturas[id].missaoId == m;
    var s2 := Rejeitar(s1, id, obs).value;
    assert s2.candidaturas[id].status == CANDIDATURA_REJEITADA;
    assert s2.missoes == s1.missoes;
  }

  // ---------------------------------------------------------------------
  // How the volunteer's own status gates applications.

  /** A volunteer record approved through VoluntarioService can apply to any
      mission it has not applied to yet; one rejected there cannot apply. */
  lemma AprovacaoDoVoluntarioLiberaCandidatura(s: Store, v: Id, m: Id, status: Option<string>, obs: Option<string>)
    requires v in s.voluntarios && m in s.missoes && !JaCandidatado(s, m, v)
    ensures VoluntarioService.Aprovar(s, v).Ok?
    ensures Criar(VoluntarioService.Aprovar(s, v).value, DadosCandidatura(m, v, status)).Ok?
    ensures VoluntarioService.Rejeitar(s, v, obs).Ok?
    ensures Criar(VoluntarioService.Rejeitar(s, v, obs).value, DadosCandidatura(m, v, status)) == Err(InvalidArgument)
  {
    var s1 := VoluntarioService.Aprovar(s, v).value;
    assert s1.voluntarios[v].status == VOLUNTARIO_APROVADO;
    var s2 := VoluntarioService.Rejeitar(s, v, obs).value;
    assert s2.voluntarios[v].status == VOLUNTARIO_REJEITADO;
  }
}

=== FILE: doacao_service.dfy ===
/** DoacaoService: donations to a collection point, each with its items, and
    the delivery step that feeds the point's needs. A donation and all its
    items are created in one transaction; an error on any item leaves the
    store as it was. Registering the delivery adds each item's quantity to
    every active need of the same point and item type, capped at that need's
    quantidade_necessaria. */
module DoacaoService {
  import opened Outcomes
  import opened Store
  import Sets

  datatype DadosDoacao = DadosDoacao(pessoaId: Id, pontoColetaId: Id, status: Option<string>)

  /** One requested item; the quantity is optional in the request. */
  datatype DadosItem = DadosItem(tipoItemId: Id, quantidade: Option<Centesimos>)

  /** A partial update: None leaves the stored column as it is. */
  datatype AlteracaoDoacao = AlteracaoDoacao(pessoaId: Option<Id>, pontoColetaId: Option<Id>, status: Option<string>)

  // ---------------------------------------------------------------------
  // Creation.

  /** What is wrong with one requested item, in the order it is checked:
      an unknown item type first, then a missing or non-positive quantity. */
  function ErroItem(tipos: set<Id>, it: DadosItem): Option<Error> {
    if it.tipoItemId !in tipos then Some(NotFound)
    else if it.quantidade.None? || it.quantidade.value <= 0 then Some(InvalidArgument)
    else None
  }

  /** Item `i` is the first of the list that is refused, and it is refused with `e`. */
  ghost predicate PrimeiroErroEm(tipos: set<Id>, itens: seq<DadosItem>, i: int, e: Error) {
    && 0 <= i < |itens|
    && ErroItem(tipos, itens[i]) == Some(e)
    && forall j :: 0 <= j < i ==> ErroItem(tipos, itens[j]).None?
  }

  /** The first refused item of a list, and its error, are determined. */
  lemma PrimeiroErroDeterminado(tipos: set<Id>, itens: seq<DadosItem>, i: int, e: Error)
    requires PrimeiroErroEm(tipos, itens, i, e)
    ensures forall j, e' :: PrimeiroErroEm(tipos, itens, j, e') ==> j == i && e' == e
  {
  }

  /** The items of a request, inserted into the items table `tabela` one by
      one at consecutive ids from `base` on, all pointing at `doacaoId`. The
      first refused item aborts the whole insertion with its error. */
  function InserirItens(tabela: map<Id, ItemDoacao>, tipos: set<Id>, base: Id, doacaoId: Id, itens: seq<DadosItem>)
    : (r: Result<map<Id, ItemDoacao>>)
    decreases |itens|
    ensures r.Err? <==> exists i :: 0 <= i < |itens| && ErroItem(tipos, itens[i]).Some?
    ensures r.Err? ==> exists i :: PrimeiroErroEm(tipos, itens, i, r.error)
    ensures r.Ok? ==>
      && (forall k :: k in r.value <==> k in tabela || base <= k < base + |itens|)
      && (forall k :: k in tabela && !(base <= k < base + |itens|) ==> r.value[k] == tabela[k])
      && (forall k :: base <= k < base + |itens| ==>
            && k in r.value
            && itens[k - base].quantidade.Some?
            && itens[k - base].quantidade.value > 0
            && r.value[k] == ItemDoacao(doacaoId, itens[k - base].tipoItemId, itens[k - base].quantidade.value))
  {
    if |itens| == 0 then Ok(tabela)
    else match ErroItem(tipos, itens[0])
      case Some(e) =>
        assert PrimeiroErroEm(tipos, itens, 0, e);
        Err(e)
      case None =>
        var item := ItemDoacao(doacaoId, itens[0].tipoItemId, itens[0].quantidade.value);
        var r := InserirItens(tabela[base := item], tipos, base + 1, doacaoId, itens[1..]);
        if r.Err? then
          assert exists i :: PrimeiroErroEm(tipos, itens, i, r.error) by {
            var i :| PrimeiroErroEm(tipos, itens[1..], i, r.error);
            assert PrimeiroErroEm(tipos, itens, i + 1, r.error);
          }
          r
        else r
  }

  /** The transaction of criar: the donation row at the counter, then its
      items after it. Any refused item rolls the whole transaction back. */
  function GravarDoacao(s: Store, doacao: Doacao, itens: seq<DadosItem>): (r: Result<Novo>)
    ensures r.Err? ==>
      && (exists i :: PrimeiroErroEm(s.tiposItem, itens, i, r.error))
      && forall j, e :: PrimeiroErroEm(s.tiposItem, itens, j, e) ==> e == r.error
    ensures r.Ok? ==>
      var d := r.value.id;
      var s' := r.value.store;
      && d == s.proximoId
      && s'.proximoId == s.proximoId + 1 + |itens|
      && SoMudaLinha(s.doacoes, s'.doacoes, d)
      && s'.doacoes[d] == doacao
      && s' == s.(doacoes := s'.doacoes, itens := s'.itens, proximoId := s'.proximoId)
      && (forall k :: k in s'.itens <==> k in s.itens || d < k <= d + |itens|)
      && (forall i :: 0 <= i < |itens| ==> ErroItem(s.tiposItem, itens[i]).None?)
    ensures r.Ok? && Fresco(s) ==> r.value.id !in s.doacoes && Fresco(r.value.store)
    ensures r.Ok? && ItensPositivos(s) ==> ItensPositivos(r.value.store)
  {
    var d := s.proximoId;
    match InserirItens(s.itens, s.tiposItem, d + 1, d, itens)
    case Err(e) =>
      assert (exists i :: PrimeiroErroEm(s.tiposItem, itens, i, e))
        && forall j, e' :: PrimeiroErroEm(s.tiposItem, itens, j, e') ==> e' == e by {
        var i :| PrimeiroErroEm(s.tiposItem, itens, i, e);
        PrimeiroErroDeterminado(s.tiposItem, itens, i, e);
      }
      Err(e)
    case Ok(m) =>
      var s' := s.(doacoes := s.doacoes[d := doacao], itens := m, proximoId := d + 1 + |itens|);
      assert Fresco(s) ==> Fresco(s') by {
        if Fresco(s) { FrescoAoGravar(s, s'); }
      }
      assert forall i :: 0 <= i < |itens| ==> ErroItem(s.tiposItem, itens[i]).None?;
      Ok(Novo(s', d))
  }

  /** The rows a successful transaction writes: item `i` of the request
      under id d + 1 + i, pointing at the donation d, with its type and its
      quantity; rows already there keep their contents. */
  lemma GravarDoacaoItens(s: Store, doacao: Doacao, itens: seq<DadosItem>)
    requires GravarDoacao(s, doacao, itens).Ok?
    ensures
      var d := s.proximoId;
      var s' := GravarDoacao(s, doacao, itens).value.store;
      && (forall k :: d < k <= d + |itens| ==>
            && k in s'.itens
            && itens[k - d - 1].quantidade.Some?
            && s'.itens[k] == ItemDoacao(d, itens[k - d - 1].tipoItemId, itens[k - d - 1].quantidade.value))
      && (forall k :: k in s.itens && !(d < k <= d + |itens|) ==> k in s'.itens && s'.itens[k] == s.itens[k])
  {
  }

  /** criar: the person and the point must exist and the point must be active;
      the list of items must not be empty; then, inside the transaction, each
      item in turn must name a known item type and carry a positive quantity.
      On success the donation takes the next id (status as given, else
      'pendente') and its items the ids after it, in request order. */
  function Criar(s: Store, dados: DadosDoacao, itens: seq<DadosItem>): (r: Result<Novo>)
    ensures r == Err(NotFound) <==>
      || dados.pessoaId !in s.pessoas
      || dados.pontoColetaId !in s.pontos
      || (&& s.pontos[dados.pontoColetaId].ativo
          && |itens| > 0
          && exists i :: PrimeiroErroEm(s.tiposItem, itens, i, NotFound))
    ensures r == Err(InvalidArgument) <==>
      && dados.pessoaId in s.pessoas
      && dados.pontoColetaId in s.pontos
      && (|| !s.pontos[dados.pontoColetaId].ativo
          || |itens| == 0
          || exists i :: PrimeiroErroEm(s.tiposItem, itens, i, InvalidArgument))
    ensures r.Err? ==> r.error != Conflict
    ensures r.Ok? ==>
      && s.pontos[dados.pontoColetaId].ativo && |itens| > 0
      && r == GravarDoacao(s, Doacao(dados.pessoaId, dados.pontoColetaId, dados.status.GetOr(DOACAO_PENDENTE)), itens)
  {
    if dados.pessoaId !in s.pessoas then Err(NotFound)
    else if dados.pontoColetaId !in s.pontos then Err(NotFound)
    else if !s.pontos[dados.pontoColetaId].ativo then Err(InvalidArgument)
    else if |itens| == 0 then Err(InvalidArgument)
    else GravarDoacao(s, Doacao(dados.pessoaId, dados.pontoColetaId, dados.status.GetOr(DOACAO_PENDENTE)), itens)
  }

  // ---------------------------------------------------------------------
  // Update, cancellation, deletion.

  /** atualizar: a supplied person must exist; a supplied point must exist
      and be active. The status is written as given: nothing stops a
      delivered donation from being set back to 'pendente'. */
  function Atualizar(s: Store, id: Id, dados: AlteracaoDoacao): (r: Result<Store>)
    ensures r == Err(NotFound) <==>
      || id !in s.doacoes
      || (dados.pessoaId.Some? && dados.pessoaId.value !in s.pessoas)
      || (dados.pontoColetaId.Some? && dados.pontoColetaId.value !in s.pontos)
    ensures r == Err(InvalidArgument) <==>
      && id in s.doacoes
      && (dados.pessoaId.Some? ==> dados.pessoaId.value in s.pessoas)
      && dados.pontoColetaId.Some? && dados.pontoColetaId.value in s.pontos
      && !s.pontos[dados.pontoColetaId.value].ativo
    ensures r.Ok? ==>
      var d := s.doacoes[id];
      && SoMudaLinha(s.doacoes, r.value.doacoes, id)
      && r.value == s.(doacoes := r.value.doacoes)
      && r.value.doacoes[id].pessoaId == dados.pessoaId.GetOr(d.pessoaId)
      && r.value.doacoes[id].pontoColetaId == dados.pontoColetaId.GetOr(d.pontoColetaId)
      && r.value.doacoes[id].status == dados.status.GetOr(d.status)
      && (dados.pontoColetaId.Some? ==> s.pontos[dados.pontoColetaId.value].ativo)
  {
    if id !in s.doacoes then Err(NotFound)
    else if dados.pessoaId.Some? && dados.pessoaId.value !in s.pessoas then Err(NotFound)
    else if dados.pontoColetaId.Some? && dados.pontoColetaId.value !in s.pontos then Err(NotFound)
    else if dados.pontoColetaId.Some? && !s.pontos[dados.pontoColetaId.value].ativo then Err(InvalidArgument)
    else
      var d := s.doacoes[id];
      var d' := Doacao(dados.pessoaId.GetOr(d.pessoaId), dados.pontoColetaId.GetOr(d.pontoColetaId), dados.status.GetOr(d.status));
      Ok(s.(doacoes := s.doacoes[id := d']))
  }

  /** cancelar: refused with Conflict once delivered; a pending or already
      cancelled donation becomes 'cancelada'. */
  function Cancelar(s: Store, id: Id): (r: Result<Store>)
    ensures r == Err(NotFound) <==> id !in s.doacoes
    ensures r == Err(Conflict) <==> id in s.doacoes && s.doacoes[id].status == DOACAO_ENTREGUE
    ensures r.Ok? ==>
      && s.doacoes[id].status != DOACAO_ENTREGUE
      && SoMudaLinha(s.doacoes, r.value.doacoes, id)
      && r.value == s.(doacoes := r.value.doacoes)
      && r.value.doacoes[id] == s.doacoes[id].(status := DOACAO_CANCELADA)
  {
    if id !in s.doacoes then Err(NotFound)
    else if s.doacoes[id].status == DOACAO_ENTREGUE then Err(Conflict)
    else Ok(s.(doacoes := s.doacoes[id := s.doacoes[id].(status := DOACAO_CANCELADA)]))
  }

  /** excluir: refused with Conflict once delivered. Otherwise the donation
      goes, and with it (by the cascading foreign key) every one of its
      items; no other item is touched. */
  function Excluir(s: Store, id: Id): (r: Result<Store>)
    ensures r == Err(NotFound) <==> id !in s.doacoes
    ensures r == Err(Conflict) <==> id in s.doacoes && s.doacoes[id].status == DOACAO_ENTREGUE
    ensures r.Ok? ==>
      && SemLinha(s.doacoes, r.value.doacoes, id)
      && r.value == s.(doacoes := r.value.doacoes, itens := r.value.itens)
      && (forall k :: k in r.value.itens <==> k in s.itens && s.itens[k].doacaoId != id)
      && (forall k :: k in r.value.itens ==> r.value.itens[k] == s.itens[k])
    ensures r.Ok? && ItensPositivos(s) ==> ItensPositivos(r.value)
  {
    if id !in s.doacoes then Err(NotFound)
    else if s.doacoes[id].status == DOACAO_ENTREGUE then Err(Conflict)
    else Ok(s.(
      doacoes := s.doacoes - {id},
      itens := map k | k in s.itens && s.itens[k].doacaoId != id :: s.itens[k]))
  }

  // ---------------------------------------------------------------------
  // Delivery.

  /** A need that an item of type `tipo` delivered at point `ponto` feeds. */
  predicate Atende(n: Necessidade, ponto: Id, tipo: Id) {
    n.ativo && n.pontoColetaId == ponto && n.tipoItemId == tipo
  }

  /** One need receiving `q`: the new amount is capped at quantidade_necessaria. */
  function Receber(n: Necessidade, q: Centesimos): (r: Necessidade)
    ensures r == n.(quantidadeRecebida := r.quantidadeRecebida)
    ensures r.quantidadeRecebida <= r.quantidadeNecessaria
    ensures q >= 0 && n.quantidadeRecebida <= n.quantidadeNecessaria ==> n.quantidadeRecebida <= r.quantidadeRecebida
    ensures r.quantidadeRecebida == n.quantidadeNecessaria || r.quantidadeRecebida == n.quantidadeRecebida + q
  {
    var novo := n.quantidadeRecebida + q;
    n.(quantidadeRecebida := if novo > n.quantidadeNecessaria then n.quantidadeNecessaria else novo)
  }

  /** One delivered item applied to all needs. */
  function AplicarItem(ns: map<Id, Necessidade>, ponto: Id, it: ItemDoacao): (r: map<Id, Necessidade>)
    ensures r.Keys == ns.Keys
  {
    map k | k in ns :: if Atende(ns[k], ponto, it.tipoItemId) then Receber(ns[k], it.quantidade) else ns[k]
  }

  /** The donation `doacaoId` has an item below id `k` of type `tipo`. */
  ghost predicate TemItemDoTipo(itens: map<Id, ItemDoacao>, doacaoId: Id, tipo: Id, k: nat) {
    exists j :: j in itens && j < k && itens[j].doacaoId == doacaoId && itens[j].tipoItemId == tipo
  }

  /** Some item of donation `doacaoId` below id `k` feeds need `n` when
      delivered at point `ponto`. */
  ghost predicate Alimentada(n: Necessidade, ponto: Id, itens: map<Id, ItemDoacao>, doacaoId: Id, k: nat) {
    n.ativo && n.pontoColetaId == ponto && TemItemDoTipo(itens, doacaoId, n.tipoItemId, k)
  }

  /** The items of donation `doacaoId` with an id below `k`, applied to the
      needs of point `ponto` in ascending id order. */
  function Entregar(ns: map<Id, Necessidade>, ponto: Id, itens: map<Id, ItemDoacao>, doacaoId: Id, k: nat)
    : (r: map<Id, Necessidade>)
    decreases k
    ensures r.Keys == ns.Keys
    ensures forall id :: id in ns ==> r[id] == ns[id].(quantidadeRecebida := r[id].quantidadeRecebida)
    ensures forall id :: id in ns && !Alimentada(ns[id], ponto, itens, doacaoId, k) ==> r[id] == ns[id]
    ensures forall id :: (id in ns && ns[id].quantidadeRecebida <= ns[id].quantidadeNecessaria ==>
      r[id].quantidadeRecebida <= r[id].quantidadeNecessaria)
  {
    if k == 0 then ns
    else
      var antes := Entregar(ns, ponto, itens, doacaoId, k - 1);
      if k - 1 in itens && itens[k - 1].doacaoId == doacaoId then
        var r := AplicarItem(antes, ponto, itens[k - 1]);
        r
      else
        assert forall id :: (id in ns && Alimentada(ns[id], ponto, itens, doacaoId, k) ==>
          Alimentada(ns[id], ponto, itens, doacaoId, k - 1));
        antes
  }

  /** The total quantity of type `tipo` in the items of donation `doacaoId` below id `k`. */
  function Soma(itens: map<Id, ItemDoacao>, doacaoId: Id, tipo: Id, k: nat): Centesimos
    decreases k
  {
    if k == 0 then 0
    else if k - 1 in itens && itens[k - 1].doacaoId == doacaoId && itens[k - 1].tipoItemId == tipo
    then Soma(itens, doacaoId, tipo, k - 1) + itens[k - 1].quantidade
    else Soma(itens, doacaoId, tipo, k - 1)
  }

  /** `total`, capped at `limite`. */
  function Limitado(total: Centesimos, limite: Centesimos): (r: Centesimos)
    ensures r <= limite && r <= total
    ensures r == total || r == limite
  {
    if total > limite then limite else total
  }

  /** Capping, adding a non-negative `q`, and capping again is capping once. */
  lemma LimitarDuasVezes(total: Centesimos, q: Centesimos, limite: Centesimos)
    requires q >= 0
    ensures Limitado(Limitado(total, limite) + q, limite) == Limitado(total + q, limite)
  {
  }

  /** With non-negative item quantities, a fed need that started within its
      bound ends at min(recebida + total delivered of its type, necessaria): capping after
      every item is the same as capping once at the end, so the order the
      items are visited in does not matter. */
  lemma {:induction false} EntregarSomaLimitada(
    ns: map<Id, Necessidade>, ponto: Id, itens: map<Id, ItemDoacao>, doacaoId: Id, k: nat, id: Id)
    requires id in ns && ns[id].ativo && ns[id].pontoColetaId == ponto
    requires ns[id].quantidadeRecebida <= ns[id].quantidadeNecessaria
    requires forall j :: j in itens ==> itens[j].quantidade >= 0
    ensures
      var n := ns[id];
      Entregar(ns, ponto, itens, doacaoId, k)[id].quantidadeRecebida
        == Limitado(n.quantidadeRecebida + Soma(itens, doacaoId, n.tipoItemId, k), n.quantidadeNecessaria)
    decreases k
  {
    var n := ns[id];
    if k > 0 {
      EntregarSomaLimitada(ns, ponto, itens, doacaoId, k - 1, id);
      var antes := Entregar(ns, ponto, itens, doacaoId, k - 1);
      var soma := Soma(itens, doacaoId, n.tipoItemId, k - 1);
      assert antes[id] == n.(quantidadeRecebida := Limitado(n.quantidadeRecebida + soma, n.quantidadeNecessaria));
      if k - 1 in itens && itens[k - 1].doacaoId == doacaoId {
        var it := itens[k - 1];
        var depois := AplicarItem(antes, ponto, it);
        assert Entregar(ns, ponto, itens, doacaoId, k) == depois;
        if it.tipoItemId == n.tipoItemId {
          assert depois[id] == Receber(antes[id], it.quantidade);
          assert Soma(itens, doacaoId, n.tipoItemId, k) == soma + it.quantidade;
          LimitarDuasVezes(n.quantidadeRecebida + soma, it.quantidade, n.quantidadeNecessaria);
        } else {
          assert depois[id] == antes[id];
        }
      }
    }
  }

  /** registrarEntrega: refused with Conflict only when the donation is
      already 'entregue' (a cancelled one is accepted). The donation becomes
      'entregue' and its items feed the point's active needs of their type;
      no need appears or disappears, only quantidade_recebida moves, a need no
      item feeds is untouched, and no need ends above its bound. */
  function RegistrarEntrega(s: Store, id: Id): (r: Result<Store>)
    ensures r == Err(NotFound) <==> id !in s.doacoes
    ensures r == Err(Conflict) <==> DoacaoEntregue(s, id)
    ensures r.Ok? ==>
      && SoMudaLinha(s.doacoes, r.value.doacoes, id)
      && r.value == s.(doacoes := r.value.doacoes, necessidades := r.value.necessidades)
      && r.value.doacoes[id] == s.doacoes[id].(status := DOACAO_ENTREGUE)
      && r.value.necessidades.Keys == s.necessidades.Keys
    ensures r.Ok? ==> forall n :: n in s.necessidades ==>
      && r.value.necessidades[n] == s.necessidades[n].(quantidadeRecebida := r.value.necessidades[n].quantidadeRecebida)
      && (!Alimentada(s.necessidades[n], s.doacoes[id].pontoColetaId, s.itens, id, Sets.KeyBound(s.itens)) ==>
            r.value.necessidades[n] == s.necessidades[n])
    ensures r.Ok? && RecebidaOk(s) ==> RecebidaOk(r.value)
  {
    if id !in s.doacoes then Err(NotFound)
    else if s.doacoes[id].status == DOACAO_ENTREGUE then Err(Conflict)
    else
      var d := s.doacoes[id];
      Ok(s.(
        doacoes := s.doacoes[id := d.(status := DOACAO_ENTREGUE)],
        necessidades := Entregar(s.necessidades, d.pontoColetaId, s.itens, id, Sets.KeyBound(s.itens))))
  }

  /** A cancelled donation can still be delivered: cancelar never makes a
      donation 'entregue', and registrarEntrega refuses only 'entregue'. */
  lemma CancelarDepoisEntregar(s: Store, id: Id)
    requires id in s.doacoes && !DoacaoEntregue(s, id)
    ensures Cancelar(s, id).Ok?
    ensures Cancelar(s, id).value.doacoes[id].status == DOACAO_CANCELADA
    ensures RegistrarEntrega(Cancelar(s, id).value, id).Ok?
    ensures RegistrarEntrega(Cancelar(s, id).value, id).value.doacoes[id].status == DOACAO_ENTREGUE
  {
  }

  /** The total quantity of type `tipo` over all items of donation `doacaoId`. */
  function TotalDoTipo(itens: map<Id, ItemDoacao>, doacaoId: Id, tipo: Id): Centesimos {
    Soma(itens, doacaoId, tipo, Sets.KeyBound(itens))
  }

  /** After a delivery, a need of the donation's point that was active and
      within its bound holds min(recebida + all the donation brought of its
      type, necessaria). */
  lemma EntregaSomaQuantidades(s: Store, id: Id, n: Id)
    requires ItensPositivos(s)
    requires id in s.doacoes && !DoacaoEntregue(s, id)
    requires n in s.necessidades && s.necessidades[n].ativo
    requires s.necessidades[n].pontoColetaId == s.doacoes[id].pontoColetaId
    requires s.necessidades[n].quantidadeRecebida <= s.necessidades[n].quantidadeNecessaria
    ensures RegistrarEntrega(s, id).Ok?
    ensures
      var antes := s.necessidades[n];
      RegistrarEntrega(s, id).value.necessidades[n].quantidadeRecebida
        == Limitado(antes.quantidadeRecebida + TotalDoTipo(s.itens, id, antes.tipoItemId), antes.quantidadeNecessaria)
  {
    EntregarSomaLimitada(s.necessidades, s.doacoes[id].pontoColetaId, s.itens, id, Sets.KeyBound(s.itens), n);
  }

  /** With non-negative item quantities every partial total is non-negative. */
  lemma {:induction false} SomaNaoNegativa(itens: map<Id, ItemDoacao>, doacaoId: Id, tipo: Id, k: nat)
    requires forall j :: j in itens ==> itens[j].quantidade >= 0
    ensures Soma(itens, doacaoId, tipo, k) >= 0
    decreases k
  {
    if k > 0 {
      SomaNaoNegativa(itens, doacaoId, tipo, k - 1);
    }
  }

  /** A delivery never lowers quantidade_recebida of any need, as long as the
      needs are within their bounds and the items have positive quantities. */
  lemma RegistrarEntregaNaoDiminui(s: Store, id: Id)
    requires ItensPositivos(s) && RecebidaOk(s)
    requires id in s.doacoes && !DoacaoEntregue(s, id)
    ensures RegistrarEntrega(s, id).Ok?
    ensures forall n :: n in s.necessidades ==>
      s.necessidades[n].quantidadeRecebida <= RegistrarEntrega(s, id).value.necessidades[n].quantidadeRecebida
  {
    var r := RegistrarEntrega(s, id).value;
    forall n | n in s.necessidades
      ensures s.necessidades[n].quantidadeRecebida <= r.necessidades[n].quantidadeRecebida
    {
      var antes := s.necessidades[n];
      if antes.ativo && antes.pontoColetaId == s.doacoes[id].pontoColetaId {
        EntregaSomaQuantidades(s, id, n);
        SomaNaoNegativa(s.itens, id, antes.tipoItemId, Sets.KeyBound(s.itens));
      }
    }
  }

  /** atualizar accepts a status change on a delivered donation; once set
      back to 'pendente' the same donation can be delivered, and counted
      into the needs, a second time. */
  lemma AtualizarReabreDoacaoEntregue(s: Store, id: Id)
    requires DoacaoEntregue(s, id)
    ensures Atualizar(s, id, AlteracaoDoacao(None, None, Some(DOACAO_PENDENTE))).Ok?
    ensures RegistrarEntrega(s, id).Err?
    ensures RegistrarEntrega(Atualizar(s, id, AlteracaoDoacao(None, None, Some(DOACAO_PENDENTE))).value, id).Ok?
  {
  }
}

=== FILE: endereco_service.dfy ===
/** EnderecoService: a person's addresses and the single principal address.
    Every address is placed in city 1, and every write that can raise the
    principal flag first lowers it on the person's other addresses. */
module EnderecoService {
  import opened Outcomes
  import opened Store
  import Sets

  datatype DadosEndereco = DadosEndereco(pessoaId: Id, principal: Option<bool>)

  /** A partial update. `pessoaId` is written as given and never checked; a
      supplied city is replaced by city 1. */
  datatype AlteracaoEndereco = AlteracaoEndereco(pessoaId: Option<Id>, cidadesId: Option<Id>, principal: Option<bool>)

  /** Every address of person `pessoaId`, except `exceto`, with the principal
      flag lowered; all other addresses as they were. The same mass update as
      ImagemNoticiaService.DesmarcarPrincipais, over the addresses table instead. */
  function DesmarcarPrincipais(ends: map<Id, Endereco>, pessoaId: Id, exceto: Option<Id>): (r: map<Id, Endereco>)
    ensures r.Keys == ends.Keys
    ensures forall k :: k in ends ==> r[k] == ends[k].(principal := r[k].principal)
    ensures forall k :: k in ends && (ends[k].pessoaId != pessoaId || exceto == Some(k)) ==> r[k] == ends[k]
    ensures forall k :: k in ends && ends[k].pessoaId == pessoaId && exceto != Some(k) ==> !r[k].principal
  {
    map k | k in ends ::
      if ends[k].pessoaId == pessoaId && exceto != Some(k) then ends[k].(principal := false) else ends[k]
  }

  /** listarPorPessoa: the person must exist; then exactly their addresses. */
  method ListarPorPessoa(s: Store, pessoaId: Id) returns (r: Result<set<Id>>)
    ensures r.Err? <==> pessoaId !in s.pessoas
    ensures r.Err? ==> r.error == NotFound
    ensures r.Ok? ==> forall k :: k in r.value <==> k in s.enderecos && s.enderecos[k].pessoaId == pessoaId
  {
    if pessoaId !in s.pessoas {
      return Err(NotFound);
    }
    var ids := Sets.Filter(s.enderecos, (e: Endereco) => e.pessoaId == pessoaId);
    return Ok(ids);
  }

  /** The addresses table after criar inserts address `id` for `dados`. */
  function ComNovoEndereco(ends: map<Id, Endereco>, dados: DadosEndereco, id: Id): (r: map<Id, Endereco>)
    ensures r.Keys == ends.Keys + {id}
    ensures r[id] == Endereco(dados.pessoaId, CIDADE_PADRAO, dados.principal.GetOr(false))
    ensures forall k :: k in ends && k != id ==>
      && r[k] == ends[k].(principal := r[k].principal)
      && (if dados.principal == Some(true) && ends[k].pessoaId == dados.pessoaId
          then !r[k].principal
          else r[k] == ends[k])
  {
    var limpos := if dados.principal == Some(true) then DesmarcarPrincipais(ends, dados.pessoaId, None) else ends;
    limpos[id := Endereco(dados.pessoaId, CIDADE_PADRAO, dados.principal.GetOr(false))]
  }

  /** criar: the person and city 1 must exist. A principal address first
      lowers the flag on every address of its person. */
  function Criar(s: Store, dados: DadosEndereco): (r: Result<Novo>)
    ensures r == Err(NotFound) <==> dados.pessoaId !in s.pessoas || CIDADE_PADRAO !in s.cidades
    ensures r.Ok? ==>
      && r.value.store == s.(enderecos := r.value.store.enderecos, proximoId := r.value.store.proximoId)
      && r.value.id == s.proximoId
      && r.value.store.enderecos == ComNovoEndereco(s.enderecos, dados, r.value.id)
    ensures r.Ok? && Fresco(s) ==> r.value.id !in s.enderecos && Fresco(r.value.store)
    ensures r.Ok? && EnderecoPrincipalUnico(s) ==> EnderecoPrincipalUnico(r.value.store)
  {
    if dados.pessoaId !in s.pessoas then Err(NotFound)
    else if CIDADE_PADRAO !in s.cidades then Err(NotFound)
    else
      var id := s.proximoId;
      var s1 := s.(enderecos := ComNovoEndereco(s.enderecos, dados, id), proximoId := id + 1);
      assert Fresco(s) ==> Fresco(s1) by {
        if Fresco(s) { FrescoAoInserir(s, s1); }
      }
      Ok(Novo(s1, id))
  }

  /** atualizar: city 1 must exist whether or not a city is supplied. When the
      update raises the flag, the person's other addresses lose theirs; then
      the supplied columns are written, with any supplied city read as 1. */
  function Atualizar(s: Store, id: Id, dados: AlteracaoEndereco): (r: Result<Store>)
    ensures r == Err(NotFound) <==> id !in s.enderecos || CIDADE_PADRAO !in s.cidades
    ensures r.Ok? ==>
      var e := s.enderecos[id];
      && r.value == s.(enderecos := r.value.enderecos)
      && r.value.enderecos.Keys == s.enderecos.Keys
      && r.value.enderecos[id] == Endereco(
           dados.pessoaId.GetOr(e.pessoaId),
           if dados.cidadesId.Some? then CIDADE_PADRAO else e.cidadesId,
           dados.principal.GetOr(e.principal))
      && forall k :: k in s.enderecos && k != id ==>
           && r.value.enderecos[k] == s.enderecos[k].(principal := r.value.enderecos[k].principal)
           && (if dados.principal == Some(true) && s.enderecos[k].pessoaId == e.pessoaId
               then !r.value.enderecos[k].principal
               else r.value.enderecos[k] == s.enderecos[k])
    ensures r.Ok? && EnderecoPrincipalUnico(s) && (dados.pessoaId.None? || dados.pessoaId == Some(s.enderecos[id].pessoaId))
      ==> EnderecoPrincipalUnico(r.value)
  {
    if id !in s.enderecos then Err(NotFound)
    else if CIDADE_PADRAO !in s.cidades then Err(NotFound)
    else
      var e := s.enderecos[id];
      var ends := if dados.principal == Some(true) then DesmarcarPrincipais(s.enderecos, e.pessoaId, Some(id)) else s.enderecos;
      var e' := Endereco(
        dados.pessoaId.GetOr(e.pessoaId),
        if dados.cidadesId.Some? then CIDADE_PADRAO else e.cidadesId,
        dados.principal.GetOr(e.principal));
      Ok(s.(enderecos := ends[id := e']))
  }

  /** definirComoPrincipal: the address becomes the one principal address of
      its person; other people's addresses are untouched. */
  function DefinirComoPrincipal(s: Store, id: Id): (r: Result<Store>)
    ensures r == Err(NotFound) <==> id !in s.enderecos
    ensures r.Ok? ==>
      var p := s.enderecos[id].pessoaId;
      && r.value == s.(enderecos := r.value.enderecos)
      && r.value.enderecos.Keys == s.enderecos.Keys
      && r.value.enderecos[id] == s.enderecos[id].(principal := true)
      && (forall k :: k in s.enderecos && r.value.enderecos[k].pessoaId == p && r.value.enderecos[k].principal ==> k == id)
      && (forall k :: k in s.enderecos && s.enderecos[k].pessoaId != p ==> r.value.enderecos[k] == s.enderecos[k])
      && (forall k :: k in s.enderecos ==> r.value.enderecos[k] == s.enderecos[k].(principal := r.value.enderecos[k].principal))
    ensures r.Ok? && EnderecoPrincipalUnico(s) ==> EnderecoPrincipalUnico(r.value)
  {
    if id !in s.enderecos then Err(NotFound)
    else
      var e := s.enderecos[id];
      Ok(s.(enderecos := DesmarcarPrincipais(s.enderecos, e.pessoaId, Some(id))[id := e.(principal := true)]))
  }

  /** excluir: removes the address; nothing depends on one. */
  function Excluir(s: Store, id: Id): (r: Result<Store>)
    ensures r == Err(NotFound) <==> id !in s.enderecos
    ensures r.Ok? ==> SemLinha(s.enderecos, r.value.enderecos, id) && r.value == s.(enderecos := r.value.enderecos)
    ensures r.Ok? && EnderecoPrincipalUnico(s) ==> EnderecoPrincipalUnico(r.value)
  {
    if id !in s.enderecos then Err(NotFound)
    else Ok(s.(enderecos := s.enderecos - {id}))
  }

  /** atualizar writes a supplied pessoa_id without looking at the target
      person: moving a principal address to a person who already has one
      leaves that person with two. */
  lemma AtualizarMoverPrincipalQuebraUnicidade(s: Store, a: Id, b: Id)
    requires CIDADE_PADRAO in s.cidades
    requires a in s.enderecos && b in s.enderecos && a != b
    requires s.enderecos[a].principal && s.enderecos[b].principal
    requires s.enderecos[a].pessoaId != s.enderecos[b].pessoaId
    ensures Atualizar(s, a, AlteracaoEndereco(Some(s.enderecos[b].pessoaId), None, None)).Ok?
    ensures !EnderecoPrincipalUnico(Atualizar(s, a, AlteracaoEndereco(Some(s.enderecos[b].pessoaId), None, None)).value)
  {
    var s' := Atualizar(s, a, AlteracaoEndereco(Some(s.enderecos[b].pessoaId), None, None)).value;
    assert s'.enderecos[a].principal && s'.enderecos[b].principal;
  }
}

=== FILE: imagem_noticia_service.dfy ===
/** ImagemNoticiaService: the images of a news item, their display order and
    the single principal image. Every write that can raise the principal
    flag first lowers it on the other images of the same news item. */
module ImagemNoticiaService {
  import opened Outcomes
  import opened Store
  import Sets

  datatype DadosImagem = DadosImagem(noticiaId: Id, ordem: Option<int>, principal: Option<bool>)

  /** A partial update. `noticiaId` is written as given and never checked. */
  datatype AlteracaoImagem = AlteracaoImagem(noticiaId: Option<Id>, ordem: Option<int>, principal: Option<bool>)

  /** Every image of news `noticiaId`, except `exceto`, with the principal
      flag lowered; all other images as they were. The same mass update as
      EnderecoService.DesmarcarPrincipais, over the images table instead. */
  function DesmarcarPrincipais(imgs: map<Id, ImagemNoticia>, noticiaId: Id, exceto: Option<Id>): (r: map<Id, ImagemNoticia>)
    ensures r.Keys == imgs.Keys
    ensures forall k :: k in imgs ==> r[k] == imgs[k].(principal := r[k].principal)
    ensures forall k :: k in imgs && (imgs[k].noticiaId != noticiaId || exceto == Some(k)) ==> r[k] == imgs[k]
    ensures forall k :: k in imgs && imgs[k].noticiaId == noticiaId && exceto != Some(k) ==> !r[k].principal
  {
    map k | k in imgs ::
      if imgs[k].noticiaId == noticiaId && exceto != Some(k) then imgs[k].(principal := false) else imgs[k]
  }

  /** The order numbers in use by the images of one news item. */
  function Ordens(imgs: map<Id, ImagemNoticia>, noticiaId: Id): set<int> {
    set k | k in imgs && imgs[k].noticiaId == noticiaId :: imgs[k].ordem
  }

  /** The order a new image gets when none is given: one past the largest in
      use by its news item, or 1 for its first image. */
  function ProximaOrdem(imgs: map<Id, ImagemNoticia>, noticiaId: Id): (o: int)
    ensures forall k :: k in imgs && imgs[k].noticiaId == noticiaId ==> imgs[k].ordem < o
    ensures (forall k :: k in imgs ==> imgs[k].noticiaId != noticiaId) ==> o == 1
    ensures (exists k :: k in imgs && imgs[k].noticiaId == noticiaId) ==>
      exists k :: k in imgs && imgs[k].noticiaId == noticiaId && o == imgs[k].ordem + 1
  {
    var ordens := Ordens(imgs, noticiaId);
    assert forall k :: k in imgs && imgs[k].noticiaId == noticiaId ==> imgs[k].ordem in ordens;
    if ordens == {} then 1 else Sets.Max(ordens) + 1
  }

  /** The images table after criar inserts image `id` for `dados`. */
  function ComNovaImagem(imgs: map<Id, ImagemNoticia>, dados: DadosImagem, id: Id): (r: map<Id, ImagemNoticia>)
    ensures r.Keys == imgs.Keys + {id}
    ensures r[id].noticiaId == dados.noticiaId
    ensures r[id].principal == dados.principal.GetOr(false)
    ensures dados.ordem.Some? ==> r[id].ordem == dados.ordem.value
    ensures dados.ordem.None? ==> forall k :: k in imgs && k != id && imgs[k].noticiaId == dados.noticiaId ==>
      imgs[k].ordem < r[id].ordem
    ensures dados.ordem.None? && (forall k :: k in imgs ==> imgs[k].noticiaId != dados.noticiaId) ==> r[id].ordem == 1
    ensures dados.ordem.None? && (exists k :: k in imgs && imgs[k].noticiaId == dados.noticiaId) ==>
      exists k :: k in imgs && imgs[k].noticiaId == dados.noticiaId && r[id].ordem == imgs[k].ordem + 1
    ensures forall k :: k in imgs && k != id ==>
      && r[k] == imgs[k].(principal := r[k].principal)
      && (if dados.principal == Some(true) && imgs[k].noticiaId == dados.noticiaId
          then !r[k].principal
          else r[k] == imgs[k])
  {
    var principal := dados.principal == Some(true);
    var limpas := if principal then DesmarcarPrincipais(imgs, dados.noticiaId, None) else imgs;
    var ordem := if dados.ordem.Some? then dados.ordem.value else ProximaOrdem(limpas, dados.noticiaId);
    limpas[id := ImagemNoticia(dados.noticiaId, ordem, dados.principal.GetOr(false))]
  }

  /** criar: the news item must exist. A principal image first lowers the flag
      on every image of its news item; an image without an order is placed
      after the last one of its news item, or first. */
  function Criar(s: Store, dados: DadosImagem): (r: Result<Novo>)
    ensures r == Err(NotFound) <==> dados.noticiaId !in s.noticias
    ensures r.Ok? ==>
      && r.value.store == s.(imagens := r.value.store.imagens, proximoId := r.value.store.proximoId)
      && r.value.id == s.proximoId
      && r.value.store.imagens == ComNovaImagem(s.imagens, dados, r.value.id)
    ensures r.Ok? && Fresco(s) ==> r.value.id !in s.imagens && Fresco(r.value.store)
    ensures r.Ok? && ImagemPrincipalUnica(s) ==> ImagemPrincipalUnica(r.value.store)
  {
    if dados.noticiaId !in s.noticias then Err(NotFound)
    else
      var id := s.proximoId;
      var s1 := s.(imagens := ComNovaImagem(s.imagens, dados, id), proximoId := id + 1);
      assert Fresco(s) ==> Fresco(s1) by {
        if Fresco(s) { FrescoAoInserir(s, s1); }
      }
      Ok(Novo(s1, id))
  }

  /** atualizar: when the update raises the flag, the other images of the
      image's current news item lose theirs; then the supplied columns are
      written. */
  function Atualizar(s: Store, id: Id, dados: AlteracaoImagem): (r: Result<Store>)
    ensures r == Err(NotFound) <==> id !in s.imagens
    ensures r.Ok? ==>
      var img := s.imagens[id];
      && r.value == s.(imagens := r.value.imagens)
      && r.value.imagens.Keys == s.imagens.Keys
      && r.value.imagens[id] == ImagemNoticia(dados.noticiaId.GetOr(img.noticiaId), dados.ordem.GetOr(img.ordem), dados.principal.GetOr(img.principal))
      && forall k :: k in s.imagens && k != id ==>
           && r.value.imagens[k] == s.imagens[k].(principal := r.value.imagens[k].principal)
           && (if dados.principal == Some(true) && s.imagens[k].noticiaId == img.noticiaId
               then !r.value.imagens[k].principal
               else r.value.imagens[k] == s.imagens[k])
    ensures r.Ok? && ImagemPrincipalUnica(s) && (dados.noticiaId.None? || dados.noticiaId == Some(s.imagens[id].noticiaId))
      ==> ImagemPrincipalUnica(r.value)
  {
    if id !in s.imagens then Err(NotFound)
    else
      var img := s.imagens[id];
      var imgs := if dados.principal == Some(true) then DesmarcarPrincipais(s.imagens, img.noticiaId, Some(id)) else s.imagens;
      var img' := ImagemNoticia(dados.noticiaId.GetOr(img.noticiaId), dados.ordem.GetOr(img.ordem), dados.principal.GetOr(img.principal));
      Ok(s.(imagens := imgs[id := img']))
  }

  /** definirComoPrincipal: the image becomes the one principal image of its
      news item; images of other news items are untouched. */
  function DefinirComoPrincipal(s: Store, id: Id): (r: Result<Store>)
    ensures r == Err(NotFound) <==> id !in s.imagens
    ensures r.Ok? ==>
      var n := s.imagens[id].noticiaId;
      && r.value == s.(imagens := r.value.imagens)
      && r.value.imagens.Keys == s.imagens.Keys
      && r.value.imagens[id] == s.imagens[id].(principal := true)
      && (forall k :: k in s.imagens && r.value.imagens[k].noticiaId == n && r.value.imagens[k].principal ==> k == id)
      && (forall k :: k in s.imagens && s.imagens[k].noticiaId != n ==> r.value.imagens[k] == s.imagens[k])
      && (forall k :: k in s.imagens ==> r.value.imagens[k] == s.imagens[k].(principal := r.value.imagens[k].principal))
    ensures r.Ok? && ImagemPrincipalUnica(s) ==> ImagemPrincipalUnica(r.value)
  {
    if id !in s.imagens then Err(NotFound)
    else
      var img := s.imagens[id];
      Ok(s.(imagens := DesmarcarPrincipais(s.imagens, img.noticiaId, Some(id))[id := img.(principal := true)]))
  }

  /** reordenar: the news item must exist; each listed image of that news
      item takes its new order, and listed ids of other news items, or of no
      image at all, are ignored. */
  function Reordenar(s: Store, noticiaId: Id, ordens: map<Id, int>): (r: Result<Store>)
    ensures r == Err(NotFound) <==> noticiaId !in s.noticias
    ensures r.Ok? ==>
      && r.value == s.(imagens := r.value.imagens)
      && r.value.imagens.Keys == s.imagens.Keys
      && forall k :: k in s.imagens ==>
           r.value.imagens[k] == (if k in ordens && s.imagens[k].noticiaId == noticiaId
                                  then s.imagens[k].(ordem := ordens[k]) else s.imagens[k])
    ensures r.Ok? && ImagemPrincipalUnica(s) ==> ImagemPrincipalUnica(r.value)
  {
    if noticiaId !in s.noticias then Err(NotFound)
    else Ok(s.(imagens := map k | k in s.imagens ::
      if k in ordens && s.imagens[k].noticiaId == noticiaId then s.imagens[k].(ordem := ordens[k]) else s.imagens[k]))
  }

  /** buscarPrincipal: the news item must exist; the answer is a principal
      image of it, or none when it has none. The query has no ORDER BY; the
      model answers with the lowest such id. */
  function BuscarPrincipal(s: Store, noticiaId: Id): (r: Result<Option<Id>>)
    ensures r == Err(NotFound) <==> noticiaId !in s.noticias
    ensures r == Ok(None) <==>
      noticiaId in s.noticias && forall k :: k in s.imagens ==> !(s.imagens[k].principal && s.imagens[k].noticiaId == noticiaId)
    ensures r.Ok? && r.value.Some? ==>
      var k := r.value.value;
      k in s.imagens && s.imagens[k].principal && s.imagens[k].noticiaId == noticiaId
    ensures r.Ok? && r.value.Some? && ImagemPrincipalUnica(s) ==>
      forall k :: k in s.imagens && s.imagens[k].principal && s.imagens[k].noticiaId == noticiaId ==> k == r.value.value
  {
    if noticiaId !in s.noticias then Err(NotFound)
    else
      var ps: set<int> := set k | k in s.imagens && s.imagens[k].principal && s.imagens[k].noticiaId == noticiaId;
      assert forall k :: k in s.imagens && s.imagens[k].principal && s.imagens[k].noticiaId == noticiaId ==> k in ps;
      if ps == {} then Ok(None)
      else
        var m := Sets.Min(ps);
        assert m in s.imagens;
        Ok(Some(m))
  }

  /** atualizar writes a supplied noticia_id without looking at the target
      news item: moving a principal image onto a news item that already has
      one leaves that news item with two. */
  lemma AtualizarMoverPrincipalQuebraUnicidade(s: Store, a: Id, b: Id)
    requires a in s.imagens && b in s.imagens && a != b
    requires s.imagens[a].principal && s.imagens[b].principal
    requires s.imagens[a].noticiaId != s.imagens[b].noticiaId
    ensures Atualizar(s, a, AlteracaoImagem(Some(s.imagens[b].noticiaId), None, None)).Ok?
    ensures !ImagemPrincipalUnica(Atualizar(s, a, AlteracaoImagem(Some(s.imagens[b].noticiaId), None, None)).value)
  {
    var s' := Atualizar(s, a, AlteracaoImagem(Some(s.imagens[b].noticiaId), None, None)).value;
    assert s'.imagens[a].principal && s'.imagens[b].principal;
  }
}

=== FILE: item_doacao_service.dfy ===
/** ItemDoacaoService: single items of a donation, edited on their own.
    Edits are refused once the item's donation is delivered, so the amounts a
    delivery counted into the needs stay the ones on record. */
module ItemDoacaoService {
  import opened Outcomes
  import opened Store
  import Sets

  datatype DadosItemDoacao = DadosItemDoacao(doacaoId: Id, tipoItemId: Id, quantidade: Option<Centesimos>)

  /** A partial update: None leaves the stored column as it is. */
  datatype AlteracaoItem = AlteracaoItem(doacaoId: Option<Id>, tipoItemId: Option<Id>, quantidade: Option<Centesimos>)

  /** listarPorDoacao: the donation must exist; then exactly its items. */
  method ListarPorDoacao(s: Store, doacaoId: Id) returns (r: Result<set<Id>>)
    ensures r.Err? <==> doacaoId !in s.doacoes
    ensures r.Err? ==> r.error == NotFound
    ensures r.Ok? ==> forall k :: k in r.value <==> k in s.itens && s.itens[k].doacaoId == doacaoId
  {
    if doacaoId !in s.doacoes {
      return Err(NotFound);
    }
    var ids := Sets.Filter(s.itens, (it: ItemDoacao) => it.doacaoId == doacaoId);
    return Ok(ids);
  }

  /** criar: the donation and the item type must exist and the quantity must
      be given and positive. The donation's status is not looked at, so an
      item can be added to a delivered donation. */
  function Criar(s: Store, dados: DadosItemDoacao): (r: Result<Novo>)
    ensures r == Err(NotFound) <==> dados.doacaoId !in s.doacoes || dados.tipoItemId !in s.tiposItem
    ensures r == Err(InvalidArgument) <==>
      && dados.doacaoId in s.doacoes
      && dados.tipoItemId in s.tiposItem
      && (dados.quantidade.None? || dados.quantidade.value <= 0)
    ensures r.Ok? ==>
      && SoMudaLinha(s.itens, r.value.store.itens, r.value.id)
      && r.value.store == s.(itens := r.value.store.itens, proximoId := r.value.store.proximoId)
      && r.value.store.itens[r.value.id].doacaoId == dados.doacaoId
      && r.value.store.itens[r.value.id].tipoItemId == dados.tipoItemId
      && r.value.store.itens[r.value.id].quantidade > 0
      && dados.quantidade == Some(r.value.store.itens[r.value.id].quantidade)
    ensures r.Ok? && Fresco(s) ==> r.value.id !in s.itens && Fresco(r.value.store)
    ensures r.Ok? && ItensPositivos(s) ==> ItensPositivos(r.value.store)
  {
    if dados.doacaoId !in s.doacoes then Err(NotFound)
    else if dados.tipoItemId !in s.tiposItem then Err(NotFound)
    else if dados.quantidade.None? || dados.quantidade.value <= 0 then Err(InvalidArgument)
    else
      var id := s.proximoId;
      var item := ItemDoacao(dados.doacaoId, dados.tipoItemId, dados.quantidade.value);
      var s1 := s.(itens := s.itens[id := item], proximoId := id + 1);
      assert Fresco(s) ==> Fresco(s1) by {
        if Fresco(s) { FrescoAoInserir(s, s1); }
      }
      Ok(Novo(s1, id))
  }

  /** atualizar: a supplied donation or item type must exist, a supplied
      quantity must be positive, and the donation the item belongs to NOW must
      not be delivered (Conflict). The donation it is moved to is not looked at. */
  function Atualizar(s: Store, id: Id, dados: AlteracaoItem): (r: Result<Store>)
    ensures r == Err(NotFound) <==>
      || id !in s.itens
      || (dados.doacaoId.Some? && dados.doacaoId.value !in s.doacoes)
      || (dados.tipoItemId.Some? && dados.tipoItemId.value !in s.tiposItem)
    ensures r == Err(InvalidArgument) <==>
      && id in s.itens
      && (dados.doacaoId.Some? ==> dados.doacaoId.value in s.doacoes)
      && (dados.tipoItemId.Some? ==> dados.tipoItemId.value in s.tiposItem)
      && dados.quantidade.Some? && dados.quantidade.value <= 0
    ensures r == Err(Conflict) <==>
      && id in s.itens
      && (dados.doacaoId.Some? ==> dados.doacaoId.value in s.doacoes)
      && (dados.tipoItemId.Some? ==> dados.tipoItemId.value in s.tiposItem)
      && (dados.quantidade.Some? ==> dados.quantidade.value > 0)
      && DoacaoEntregue(s, s.itens[id].doacaoId)
    ensures r.Ok? ==>
      var it := s.itens[id];
      && !DoacaoEntregue(s, it.doacaoId)
      && SoMudaLinha(s.itens, r.value.itens, id)
      && r.value == s.(itens := r.value.itens)
      && r.value.itens[id].doacaoId == dados.doacaoId.GetOr(it.doacaoId)
      && r.value.itens[id].tipoItemId == dados.tipoItemId.GetOr(it.tipoItemId)
      && r.value.itens[id].quantidade == dados.quantidade.GetOr(it.quantidade)
    ensures r.Ok? && ItensPositivos(s) ==> ItensPositivos(r.value)
  {
    if id !in s.itens then Err(NotFound)
    else if dados.doacaoId.Some? && dados.doacaoId.value !in s.doacoes then Err(NotFound)
    else if dados.tipoItemId.Some? && dados.tipoItemId.value !in s.tiposItem then Err(NotFound)
    else if dados.quantidade.Some? && dados.quantidade.value <= 0 then Err(InvalidArgument)
    else
      var it := s.itens[id];
      if DoacaoEntregue(s, it.doacaoId) then Err(Conflict)
      else
        var it' := ItemDoacao(dados.doacaoId.GetOr(it.doacaoId), dados.tipoItemId.GetOr(it.tipoItemId), dados.quantidade.GetOr(it.quantidade));
        Ok(s.(itens := s.itens[id := it']))
  }

  /** excluir: refused with Conflict when the item's donation is delivered. */
  function Excluir(s: Store, id: Id): (r: Result<Store>)
    ensures r == Err(NotFound) <==> id !in s.itens
    ensures r == Err(Conflict) <==> id in s.itens && DoacaoEntregue(s, s.itens[id].doacaoId)
    ensures r.Ok? ==>
      && !DoacaoEntregue(s, s.itens[id].doacaoId)
      && SemLinha(s.itens, r.value.itens, id)
      && r.value == s.(itens := r.value.itens)
    ensures r.Ok? && ItensPositivos(s) ==> ItensPositivos(r.value)
  {
    if id !in s.itens then Err(NotFound)
    else if DoacaoEntregue(s, s.itens[id].doacaoId) then Err(Conflict)
    else Ok(s.(itens := s.itens - {id}))
  }

  /** No edit through atualizar or excluir changes the items of a delivered
      donation: every item that belonged to it before still belongs to it,
      unchanged, and no item is taken away. */
  lemma EdicaoPreservaDoacaoEntregue(s: Store, id: Id, dados: AlteracaoItem, d: Id)
    requires DoacaoEntregue(s, d)
    ensures Atualizar(s, id, dados).Ok? ==>
      forall k :: k in s.itens && s.itens[k].doacaoId == d ==> k in Atualizar(s, id, dados).value.itens && Atualizar(s, id, dados).value.itens[k] == s.itens[k]
    ensures Excluir(s, id).Ok? ==>
      forall k :: k in s.itens && s.itens[k].doacaoId == d ==> k in Excluir(s, id).value.itens && Excluir(s, id).value.itens[k] == s.itens[k]
  {
  }

  /** criar does not look at the donation's status: it attaches a new item
      to a delivered donation. */
  lemma CriarAceitaDoacaoEntregue(s: Store, dados: DadosItemDoacao)
    requires DoacaoEntregue(s, dados.doacaoId)
    requires dados.tipoItemId in s.tiposItem && dados.quantidade.Some? && dados.quantidade.value > 0
    ensures Criar(s, dados).Ok?
    ensures Criar(s, dados).value.store.itens[Criar(s, dados).value.id].doacaoId == dados.doacaoId
  {
  }

  /** atualizar checks only the donation an item belongs to now: an item of a
      pending donation can be moved onto a delivered one. */
  lemma AtualizarMoveParaDoacaoEntregue(s: Store, id: Id, d: Id)
    requires id in s.itens && !DoacaoEntregue(s, s.itens[id].doacaoId)
    requires DoacaoEntregue(s, d)
    ensures Atualizar(s, id, AlteracaoItem(Some(d), None, None)).Ok?
    ensures Atualizar(s, id, AlteracaoItem(Some(d), None, None)).value.itens[id].doacaoId == d
  {
  }
}

=== FILE: missao_service.dfy ===
/** MissaoService: missions, the capacity-bearing aggregate. A mission keeps
    two counters, vagas_totais and vagas_preenchidas; the service keeps the
    first positive and refuses any write that would put the second above it,
    except where a caller supplies the second directly (see the lemmas at the
    end of this module). */
module MissaoService {
  import opened Outcomes
  import opened Store
  import Sets

  /** The fields of a new mission the service reads. dt_inicio and vagas_totais
      are NOT NULL columns the request must carry. */
  datatype DadosMissao = DadosMissao(
    categoriaId: Id,
    dtInicio: int,
    dtFim: Option<int>,
    vagasTotais: int,
    vagasPreenchidas: Option<int>,
    status: Option<string>)

  /** A partial update: None leaves the stored column as it is. */
  datatype AlteracaoMissao = AlteracaoMissao(
    categoriaId: Option<Id>,
    cidadesId: Option<Id>,
    dtInicio: Option<int>,
    dtFim: Option<int>,
    vagasTotais: Option<int>,
    vagasPreenchidas: Option<int>,
    status: Option<string>)

  /** A mission that still takes volunteers. */
  predicate Disponivel(m: Missao) {
    m.vagasPreenchidas < m.vagasTotais && m.status == MISSAO_ATIVA
  }

  /** listarDisponiveis: the missions with a free slot whose status is 'ativa'. */
  method ListarDisponiveis(s: Store) returns (r: set<Id>)
    ensures forall id :: id in r <==>
      && id in s.missoes
      && s.missoes[id].vagasPreenchidas < s.missoes[id].vagasTotais
      && s.missoes[id].status == MISSAO_ATIVA
  {
    r := Sets.Filter(s.missoes, Disponivel);
  }

  /** criar: checks the category, city 1 and the admin (existence, then the
      ADMIN profile), then the dates against `now` and the slot count. The new
      mission is placed in city 1, credited to the admin, and starts with the
      supplied vagas_preenchidas or 0 and the supplied status or 'ativa'. */
  function Criar(s: Store, dados: DadosMissao, adminId: Id, now: int): (r: Result<Novo>)
    ensures r == Err(NotFound) <==>
      || dados.categoriaId !in s.categoriasMissao
      || CIDADE_PADRAO !in s.cidades
      || adminId !in s.pessoas
    ensures r == Err(InvalidArgument) <==>
      && dados.categoriaId in s.categoriasMissao
      && CIDADE_PADRAO in s.cidades
      && adminId in s.pessoas
      && (|| !EhAdmin(s, adminId)
          || dados.dtInicio < now
          || (dados.dtFim.Some? && dados.dtFim.value < dados.dtInicio)
          || dados.vagasTotais <= 0)
    ensures r.Ok? ==>
      && SoMudaLinha(s.missoes, r.value.store.missoes, r.value.id)
      && r.value.store == s.(missoes := r.value.store.missoes, proximoId := r.value.store.proximoId)
    ensures r.Ok? ==>
      var m := r.value.store.missoes[r.value.id];
      && m.categoriaId == dados.categoriaId
      && m.cidadesId == CIDADE_PADRAO
      && m.adminCriadorId == adminId
      && m.dtInicio == dados.dtInicio >= now
      && m.dtFim == dados.dtFim
      && m.vagasTotais == dados.vagasTotais > 0
      && m.vagasPreenchidas == dados.vagasPreenchidas.GetOr(0)
      && m.status == dados.status.GetOr(MISSAO_ATIVA)
    ensures r.Ok? && Fresco(s) ==> r.value.id !in s.missoes && Fresco(r.value.store)
    ensures r.Ok? && CapacidadeOk(s) && 0 <= dados.vagasPreenchidas.GetOr(0) <= dados.vagasTotais ==>
      CapacidadeOk(r.value.store)
  {
    if dados.categoriaId !in s.categoriasMissao then Err(NotFound)
    else if CIDADE_PADRAO !in s.cidades then Err(NotFound)
    else if adminId !in s.pessoas then Err(NotFound)
    else if !EhAdmin(s, adminId) then Err(InvalidArgument)
    else if dados.dtInicio < now then Err(InvalidArgument)
    else if dados.dtFim.Some? && dados.dtFim.value < dados.dtInicio then Err(InvalidArgument)
    else if dados.vagasTotais <= 0 then Err(InvalidArgument)
    else
      var id := s.proximoId;
      var m := Missao(
        dados.categoriaId, CIDADE_PADRAO, dados.dtInicio, dados.dtFim, dados.vagasTotais,
        dados.vagasPreenchidas.GetOr(0), adminId, dados.status.GetOr(MISSAO_ATIVA));
      Ok(Novo(s.(missoes := s.missoes[id := m], proximoId := id + 1), id))
  }

  /** The stored mission with the supplied columns written over it; a
      supplied cidades_id is rewritten to city 1. */
  function Mesclar(a: Missao, d: AlteracaoMissao): Missao {
    Missao(
      d.categoriaId.GetOr(a.categoriaId),
      if d.cidadesId.Some? then CIDADE_PADRAO else a.cidadesId,
      d.dtInicio.GetOr(a.dtInicio),
      if d.dtFim.Some? then d.dtFim else a.dtFim,
      d.vagasTotais.GetOr(a.vagasTotais),
      d.vagasPreenchidas.GetOr(a.vagasPreenchidas),
      a.adminCriadorId,
      d.status.GetOr(a.status))
  }

  /** atualizar: validates the incoming columns against the MERGED mission
      (incoming value if present, stored value otherwise): a new dt_fim is
      compared with the merged dt_inicio, and the merged vagas_preenchidas may
      not exceed the merged vagas_totais. */
  function Atualizar(s: Store, id: Id, dados: AlteracaoMissao, now: int): (r: Result<Store>)
    ensures r == Err(NotFound) <==>
      id !in s.missoes || (dados.categoriaId.Some? && dados.categoriaId.value !in s.categoriasMissao)
    ensures id in s.missoes ==>
      var a := s.missoes[id];
      (r == Err(InvalidArgument) <==>
        && (dados.categoriaId.None? || dados.categoriaId.value in s.categoriasMissao)
        && (|| (dados.dtInicio.Some? && dados.dtInicio.value < now)
            || (dados.dtFim.Some? && dados.dtFim.value < dados.dtInicio.GetOr(a.dtInicio))
            || (dados.vagasTotais.Some? && dados.vagasTotais.value <= 0)
            || dados.vagasPreenchidas.GetOr(a.vagasPreenchidas) > dados.vagasTotais.GetOr(a.vagasTotais)))
    ensures r.Ok? ==>
      && SoMudaLinha(s.missoes, r.value.missoes, id)
      && r.value == s.(missoes := r.value.missoes)
    ensures r.Ok? ==>
      var a := s.missoes[id];
      var m := r.value.missoes[id];
      && m.vagasPreenchidas <= m.vagasTotais
      && (dados.dtFim.Some? ==> m.dtFim.Some? && m.dtInicio <= m.dtFim.value)
      && m.vagasTotais == dados.vagasTotais.GetOr(a.vagasTotais)
      && m.vagasPreenchidas == dados.vagasPreenchidas.GetOr(a.vagasPreenchidas)
      && m.categoriaId == dados.categoriaId.GetOr(a.categoriaId)
      && m.cidadesId == (if dados.cidadesId.Some? then CIDADE_PADRAO else a.cidadesId)
      && m.dtInicio == dados.dtInicio.GetOr(a.dtInicio)
      && m.dtFim == (if dados.dtFim.Some? then dados.dtFim else a.dtFim)
      && m.status == dados.status.GetOr(a.status)
      && m.adminCriadorId == a.adminCriadorId
    ensures r.Ok? && CapacidadeOk(s) && dados.vagasPreenchidas.GetOr(0) >= 0 ==> CapacidadeOk(r.value)
  {
    if id !in s.missoes then Err(NotFound)
    else
      var a := s.missoes[id];
      if dados.categoriaId.Some? && dados.categoriaId.value !in s.categoriasMissao then Err(NotFound)
      else if dados.dtInicio.Some? && dados.dtInicio.value < now then Err(InvalidArgument)
      else if dados.dtFim.Some? && dados.dtFim.value < dados.dtInicio.GetOr(a.dtInicio) then Err(InvalidArgument)
      else if dados.vagasTotais.Some? && dados.vagasTotais.value <= 0 then Err(InvalidArgument)
      else if dados.vagasPreenchidas.GetOr(a.vagasPreenchidas) > dados.vagasTotais.GetOr(a.vagasTotais) then
        Err(InvalidArgument)
      else Ok(s.(missoes := s.missoes[id := Mesclar(a, dados)]))
  }

  /** atualizarVagas: stores exactly the given vagas_preenchidas unless it is
      above vagas_totais. */
  function AtualizarVagas(s: Store, id: Id, vagas: int): (r: Result<Store>)
    ensures r == Err(NotFound) <==> id !in s.missoes
    ensures r == Err(InvalidArgument) <==> id in s.missoes && vagas > s.missoes[id].vagasTotais
    ensures r.Ok? ==>
      && SoMudaLinha(s.missoes, r.value.missoes, id)
      && r.value == s.(missoes := r.value.missoes)
      && r.value.missoes[id] == s.missoes[id].(vagasPreenchidas := vagas)
    ensures r.Ok? && CapacidadeOk(s) && vagas >= 0 ==> CapacidadeOk(r.value)
  {
    if id !in s.missoes then Err(NotFound)
    else if vagas > s.missoes[id].vagasTotais then Err(InvalidArgument)
    else Ok(s.(missoes := s.missoes[id := s.missoes[id].(vagasPreenchidas := vagas)]))
  }

  /** The common shape of finalizar and cancelar: only the status changes. */
  function MudarStatus(s: Store, id: Id, status: string): (r: Result<Store>)
    ensures r == Err(NotFound) <==> id !in s.missoes
    ensures r.Ok? ==>
      && SoMudaLinha(s.missoes, r.value.missoes, id)
      && r.value == s.(missoes := r.value.missoes)
      && r.value.missoes[id] == s.missoes[id].(status := status)
  {
    if id !in s.missoes then Err(NotFound)
    else Ok(s.(missoes := s.missoes[id := s.missoes[id].(status := status)]))
  }

  /** finalizar: status becomes 'finalizada'; both slot counters are untouched. */
  function Finalizar(s: Store, id: Id): (r: Result<Store>)
    ensures r == Err(NotFound) <==> id !in s.missoes
    ensures r.Ok? ==>
      && SoMudaLinha(s.missoes, r.value.missoes, id)
      && r.value == s.(missoes := r.value.missoes)
      && r.value.missoes[id].status == MISSAO_FINALIZADA
      && r.value.missoes[id].vagasTotais == s.missoes[id].vagasTotais
      && r.value.missoes[id].vagasPreenchidas == s.missoes[id].vagasPreenchidas
    ensures r.Ok? && CapacidadeOk(s) ==> CapacidadeOk(r.value)
  {
    MudarStatus(s, id, MISSAO_FINALIZADA)
  }

  /** cancelar: status becomes 'cancelada'; both slot counters are untouched. */
  function Cancelar(s: Store, id: Id): (r: Result<Store>)
    ensures r == Err(NotFound) <==> id !in s.missoes
    ensures r.Ok? ==>
      && SoMudaLinha(s.missoes, r.value.missoes, id)
      && r.value == s.(missoes := r.value.missoes)
      && r.value.missoes[id].status == MISSAO_CANCELADA
      && r.value.missoes[id].vagasTotais == s.missoes[id].vagasTotais
      && r.value.missoes[id].vagasPreenchidas == s.missoes[id].vagasPreenchidas
    ensures r.Ok? && CapacidadeOk(s) ==> CapacidadeOk(r.value)
  {
    MudarStatus(s, id, MISSAO_CANCELADA)
  }

  /** Some application points at the mission. */
  predicate TemCandidaturas(s: Store, missaoId: Id) {
    exists c :: c in s.candidaturas && s.candidaturas[c].missaoId == missaoId
  }

  /** excluir: refused while any application references the mission;
      otherwise removes that mission and nothing else. */
  function Excluir(s: Store, id: Id): (r: Result<Store>)
    ensures r == Err(NotFound) <==> id !in s.missoes
    ensures r == Err(Conflict) <==>
      id in s.missoes && exists c :: c in s.candidaturas && s.candidaturas[c].missaoId == id
    ensures r.Ok? ==>
      && SemLinha(s.missoes, r.value.missoes, id)
      && r.value == s.(missoes := r.value.missoes)
    ensures r.Ok? && CapacidadeOk(s) ==> CapacidadeOk(r.value)
  {
    if id !in s.missoes then Err(NotFound)
    else if TemCandidaturas(s, id) then Err(Conflict)
    else Ok(s.(missoes := s.missoes - {id}))
  }

  // ---------------------------------------------------------------------
  // The capacity bound needs the caller's help: criar and atualizarVagas
  // store a supplied vagas_preenchidas without checking it against 0 (and
  // criar not even against vagas_totais).

  /** criar accepts a supplied vagas_preenchidas above vagas_totais, so the
      stored mission breaks the capacity bound. */
  lemma CriarAceitaPreenchidasAcimaDoTotal(s: Store, dados: DadosMissao, adminId: Id, now: int)
    requires Criar(s, dados, adminId, now).Ok?
    requires dados.vagasPreenchidas.Some? && dados.vagasPreenchidas.value > dados.vagasTotais
    ensures !CapacidadeOk(Criar(s, dados, adminId, now).value.store)
  {
    var n := Criar(s, dados, adminId, now).value;
    assert n.id in n.store.missoes;
  }

  /** atualizarVagas accepts any value up to vagas_totais, negative ones included. */
  lemma AtualizarVagasAceitaNegativo(s: Store, id: Id, vagas: int)
    requires id in s.missoes && vagas < 0
    requires vagas <= s.missoes[id].vagasTotais
    ensures AtualizarVagas(s, id, vagas).Ok?
    ensures !CapacidadeOk(AtualizarVagas(s, id, vagas).value)
  {
    assert id in AtualizarVagas(s, id, vagas).value.missoes;
  }
}

=== FILE: necessidade_ponto_service.dfy ===
/** NecessidadePontoService: what a collection point still needs, per item
    type. quantidade_necessaria is kept positive and quantidade_recebida is
    kept at or below it by every write that goes through a check; the two
    lemmas at the end show the writes that do not. */
module NecessidadePontoService {
  import opened Outcomes
  import opened Store

  datatype DadosNecessidade = DadosNecessidade(
    pontoColetaId: Id,
    tipoItemId: Id,
    quantidadeNecessaria: Option<Centesimos>,
    quantidadeRecebida: Option<Centesimos>,
    prioridade: Option<string>,
    ativo: Option<bool>)

  /** A partial update: None leaves the stored column as it is. */
  datatype AlteracaoNecessidade = AlteracaoNecessidade(
    pontoColetaId: Option<Id>,
    tipoItemId: Option<Id>,
    quantidadeNecessaria: Option<Centesimos>,
    quantidadeRecebida: Option<Centesimos>,
    prioridade: Option<string>,
    ativo: Option<bool>)

  /** criar: the point and the item type must exist and quantidade_necessaria
      must be given and positive. quantidade_recebida defaults to 0, priority
      to 'media', ativo to true. */
  function Criar(s: Store, dados: DadosNecessidade): (r: Result<Novo>)
    ensures r == Err(NotFound) <==> dados.pontoColetaId !in s.pontos || dados.tipoItemId !in s.tiposItem
    ensures r == Err(InvalidArgument) <==>
      && dados.pontoColetaId in s.pontos
      && dados.tipoItemId in s.tiposItem
      && (dados.quantidadeNecessaria.None? || dados.quantidadeNecessaria.value <= 0)
    ensures r.Ok? ==>
      && SoMudaLinha(s.necessidades, r.value.store.necessidades, r.value.id)
      && r.value.store == s.(necessidades := r.value.store.necessidades, proximoId := r.value.store.proximoId)
    ensures r.Ok? ==>
      var n := r.value.store.necessidades[r.value.id];
      && n.pontoColetaId == dados.pontoColetaId && n.tipoItemId == dados.tipoItemId
      && n.quantidadeNecessaria > 0
      && n.quantidadeNecessaria == dados.quantidadeNecessaria.value
      && n.quantidadeRecebida == dados.quantidadeRecebida.GetOr(0)
      && n.prioridade == dados.prioridade.GetOr(PRIORIDADE_MEDIA)
      && n.ativo == dados.ativo.GetOr(true)
    ensures r.Ok? && Fresco(s) ==> r.value.id !in s.necessidades && Fresco(r.value.store)
    ensures r.Ok? && RecebidaOk(s) && dados.quantidadeRecebida.GetOr(0) <= dados.quantidadeNecessaria.value
      ==> RecebidaOk(r.value.store)
  {
    if dados.pontoColetaId !in s.pontos then Err(NotFound)
    else if dados.tipoItemId !in s.tiposItem then Err(NotFound)
    else if dados.quantidadeNecessaria.None? || dados.quantidadeNecessaria.value <= 0 then Err(InvalidArgument)
    else
      var id := s.proximoId;
      var n := Necessidade(
        dados.pontoColetaId, dados.tipoItemId,
        dados.quantidadeNecessaria.value, dados.quantidadeRecebida.GetOr(0),
        dados.prioridade.GetOr(PRIORIDADE_MEDIA), dados.ativo.GetOr(true));
      Ok(Novo(s.(necessidades := s.necessidades[id := n], proximoId := id + 1), id))
  }

  /** The row an update writes: each supplied column replaces the stored one. */
  function Mesclar(n: Necessidade, d: AlteracaoNecessidade): Necessidade {
    Necessidade(
      d.pontoColetaId.GetOr(n.pontoColetaId),
      d.tipoItemId.GetOr(n.tipoItemId),
      d.quantidadeNecessaria.GetOr(n.quantidadeNecessaria),
      d.quantidadeRecebida.GetOr(n.quantidadeRecebida),
      d.prioridade.GetOr(n.prioridade),
      d.ativo.GetOr(n.ativo))
  }

  /** atualizar: a supplied point or item type must exist; the quantities the
      row would end up with must have 0 < necessaria and recebida <= necessaria.
      So this write always keeps the need within bounds. */
  function Atualizar(s: Store, id: Id, dados: AlteracaoNecessidade): (r: Result<Store>)
    ensures r == Err(NotFound) <==>
      || id !in s.necessidades
      || (dados.pontoColetaId.Some? && dados.pontoColetaId.value !in s.pontos)
      || (dados.tipoItemId.Some? && dados.tipoItemId.value !in s.tiposItem)
    ensures r == Err(InvalidArgument) <==>
      && id in s.necessidades
      && (dados.pontoColetaId.Some? ==> dados.pontoColetaId.value in s.pontos)
      && (dados.tipoItemId.Some? ==> dados.tipoItemId.value in s.tiposItem)
      && var nec := dados.quantidadeNecessaria.GetOr(s.necessidades[id].quantidadeNecessaria);
         var rec := dados.quantidadeRecebida.GetOr(s.necessidades[id].quantidadeRecebida);
         nec <= 0 || rec > nec
    ensures r.Ok? ==>
      && SoMudaLinha(s.necessidades, r.value.necessidades, id)
      && r.value == s.(necessidades := r.value.necessidades)
      && 0 < r.value.necessidades[id].quantidadeNecessaria
      && r.value.necessidades[id].quantidadeRecebida <= r.value.necessidades[id].quantidadeNecessaria
    ensures r.Ok? ==>
      var n := s.necessidades[id];
      var m := r.value.necessidades[id];
      && m.pontoColetaId == dados.pontoColetaId.GetOr(n.pontoColetaId)
      && m.tipoItemId == dados.tipoItemId.GetOr(n.tipoItemId)
      && m.quantidadeNecessaria == dados.quantidadeNecessaria.GetOr(n.quantidadeNecessaria)
      && m.quantidadeRecebida == dados.quantidadeRecebida.GetOr(n.quantidadeRecebida)
      && m.prioridade == dados.prioridade.GetOr(n.prioridade)
      && m.ativo == dados.ativo.GetOr(n.ativo)
    ensures r.Ok? && RecebidaOk(s) ==> RecebidaOk(r.value)
  {
    if id !in s.necessidades then Err(NotFound)
    else if dados.pontoColetaId.Some? && dados.pontoColetaId.value !in s.pontos then Err(NotFound)
    else if dados.tipoItemId.Some? && dados.tipoItemId.value !in s.tiposItem then Err(NotFound)
    else
      var n := s.necessidades[id];
      var nec := dados.quantidadeNecessaria.GetOr(n.quantidadeNecessaria);
      if nec <= 0 then Err(InvalidArgument)
      else
        var rec := dados.quantidadeRecebida.GetOr(n.quantidadeRecebida);
        if rec > nec then Err(InvalidArgument)
        else Ok(s.(necessidades := s.necessidades[id := Mesclar(n, dados)]))
  }

  /** atualizarQuantidadeRecebida: refuses a value above quantidade_necessaria
      and otherwise writes it as given. */
  function AtualizarQuantidadeRecebida(s: Store, id: Id, quantidade: Centesimos): (r: Result<Store>)
    ensures r == Err(NotFound) <==> id !in s.necessidades
    ensures r == Err(InvalidArgument) <==> id in s.necessidades && quantidade > s.necessidades[id].quantidadeNecessaria
    ensures r.Ok? ==>
      && SoMudaLinha(s.necessidades, r.value.necessidades, id)
      && r.value == s.(necessidades := r.value.necessidades)
      && r.value.necessidades[id] == s.necessidades[id].(quantidadeRecebida := quantidade)
      && quantidade <= r.value.necessidades[id].quantidadeNecessaria
    ensures r.Ok? && RecebidaOk(s) ==> RecebidaOk(r.value)
  {
    if id !in s.necessidades then Err(NotFound)
    else if quantidade > s.necessidades[id].quantidadeNecessaria then Err(InvalidArgument)
    else Ok(s.(necessidades := s.necessidades[id := s.necessidades[id].(quantidadeRecebida := quantidade)]))
  }

  /** Shared by ativar and desativar: only the ativo flag of one row changes. */
  function DefinirAtivo(s: Store, id: Id, ativo: bool): (r: Result<Store>)
    ensures r == Err(NotFound) <==> id !in s.necessidades
    ensures r.Ok? ==>
      && SoMudaLinha(s.necessidades, r.value.necessidades, id)
      && r.value == s.(necessidades := r.value.necessidades)
      && r.value.necessidades[id] == s.necessidades[id].(ativo := ativo)
    ensures r.Ok? && RecebidaOk(s) ==> RecebidaOk(r.value)
  {
    if id !in s.necessidades then Err(NotFound)
    else Ok(s.(necessidades := s.necessidades[id := s.necessidades[id].(ativo := ativo)]))
  }

  /** Setting the flag twice is the same as setting it once. */
  lemma DefinirAtivoIdempotente(s: Store, id: Id, ativo: bool)
    requires id in s.necessidades
    ensures DefinirAtivo(s, id, ativo).Ok?
    ensures DefinirAtivo(DefinirAtivo(s, id, ativo).value, id, ativo) == DefinirAtivo(s, id, ativo)
  {
    var s1 := DefinirAtivo(s, id, ativo).value;
    assert s1.necessidades[id := s1.necessidades[id].(ativo := ativo)] == s1.necessidades;
  }

  /** ativar: the need takes part in deliveries again. */
  function Ativar(s: Store, id: Id): (r: Result<Store>)
    ensures r == Err(NotFound) <==> id !in s.necessidades
    ensures r.Ok? ==> r.value.necessidades.Keys == s.necessidades.Keys && r.value.necessidades[id].ativo
    ensures r.Ok? ==>
      && r.value.necessidades[id].quantidadeRecebida == s.necessidades[id].quantidadeRecebida
      && r.value.necessidades[id].quantidadeNecessaria == s.necessidades[id].quantidadeNecessaria
    ensures r.Ok? ==>
      && SoMudaLinha(s.necessidades, r.value.necessidades, id)
      && r.value == s.(necessidades := r.value.necessidades)
      && r.value.necessidades[id] == s.necessidades[id].(ativo := true)
    ensures r.Ok? && RecebidaOk(s) ==> RecebidaOk(r.value)
  {
    DefinirAtivo(s, id, true)
  }

  /** desativar: the need is skipped by later deliveries. */
  function Desativar(s: Store, id: Id): (r: Result<Store>)
    ensures r == Err(NotFound) <==> id !in s.necessidades
    ensures r.Ok? ==> r.value.necessidades.Keys == s.necessidades.Keys && !r.value.necessidades[id].ativo
    ensures r.Ok? ==>
      && r.value.necessidades[id].quantidadeRecebida == s.necessidades[id].quantidadeRecebida
      && r.value.necessidades[id].quantidadeNecessaria == s.necessidades[id].quantidadeNecessaria
    ensures r.Ok? ==>
      && SoMudaLinha(s.necessidades, r.value.necessidades, id)
      && r.value == s.(necessidades := r.value.necessidades)
      && r.value.necessidades[id] == s.necessidades[id].(ativo := false)
    ensures r.Ok? && RecebidaOk(s) ==> RecebidaOk(r.value)
  {
    DefinirAtivo(s, id, false)
  }

  /** excluir: removes the row; nothing depends on a need. */
  function Excluir(s: Store, id: Id): (r: Result<Store>)
    ensures r == Err(NotFound) <==> id !in s.necessidades
    ensures r.Ok? ==> SemLinha(s.necessidades, r.value.necessidades, id) && r.value == s.(necessidades := r.value.necessidades)
    ensures r.Ok? && RecebidaOk(s) ==> RecebidaOk(r.value)
  {
    if id !in s.necessidades then Err(NotFound)
    else Ok(s.(necessidades := s.necessidades - {id}))
  }

  // ---------------------------------------------------------------------
  // Writes that go around the bound.

  /** criar never compares a supplied quantidade_recebida with
      quantidade_necessaria: a need can be born over-satisfied. */
  lemma CriarAceitaRecebidaAcimaDaNecessaria(s: Store, dados: DadosNecessidade)
    requires Criar(s, dados).Ok?
    requires dados.quantidadeRecebida.Some? && dados.quantidadeRecebida.value > dados.quantidadeNecessaria.value
    ensures !RecebidaOk(Criar(s, dados).value.store)
  {
    var n := Criar(s, dados).value;
    assert n.id in n.store.necessidades;
  }

  /** atualizarQuantidadeRecebida has no lower bound: a negative amount is stored. */
  lemma AtualizarQuantidadeRecebidaAceitaNegativo(s: Store, id: Id, quantidade: Centesimos)
    requires id in s.necessidades && quantidade < 0 && quantidade <= s.necessidades[id].quantidadeNecessaria
    ensures AtualizarQuantidadeRecebida(s, id, quantidade).Ok?
    ensures AtualizarQuantidadeRecebida(s, id, quantidade).value.necessidades[id].quantidadeRecebida < 0
  {
  }
}

=== FILE: noticia_service.dfy ===
/** NoticiaService: news items written by administrators, their publication,
    their featured flag and their view counter. */
module NoticiaService {
  import opened Outcomes
  import opened Store
  import Sets

  datatype DadosNoticia = DadosNoticia(categoriaId: Id, status: Option<string>, destaque: Option<bool>, visualizacoes: Option<int>)

  /** A news item the featured listing shows. */
  predicate EmDestaque(n: Noticia) {
    n.destaque && n.status == NOTICIA_PUBLICADA
  }

  /** listarDestaque: exactly the published news items marked as featured. */
  method ListarDestaque(s: Store) returns (r: set<Id>)
    ensures forall id :: id in r <==> id in s.noticias && s.noticias[id].destaque && s.noticias[id].status == NOTICIA_PUBLICADA
  {
    r := Sets.Filter(s.noticias, EmDestaque);
  }

  /** criar: the category and the author must exist and the author's profile
      must be ADMIN. A new item is a draft, not featured, with no views,
      unless the request says otherwise. */
  function Criar(s: Store, dados: DadosNoticia, adminId: Id): (r: Result<Novo>)
    ensures r == Err(NotFound) <==> dados.categoriaId !in s.categoriasNoticia || adminId !in s.pessoas
    ensures r == Err(InvalidArgument) <==>
      dados.categoriaId in s.categoriasNoticia && adminId in s.pessoas && !EhAdmin(s, adminId)
    ensures r.Ok? ==>
      && adminId in s.pessoas && EhAdmin(s, adminId)
      && SoMudaLinha(s.noticias, r.value.store.noticias, r.value.id)
      && r.value.store == s.(noticias := r.value.store.noticias, proximoId := r.value.store.proximoId)
      && r.value.store.noticias[r.value.id] == Noticia(
           dados.categoriaId, adminId, dados.status.GetOr(NOTICIA_RASCUNHO),
           dados.destaque.GetOr(false), dados.visualizacoes.GetOr(0))
    ensures r.Ok? && Fresco(s) ==> r.value.id !in s.noticias && Fresco(r.value.store)
  {
    if dados.categoriaId !in s.categoriasNoticia then Err(NotFound)
    else if adminId !in s.pessoas then Err(NotFound)
    else if !EhAdmin(s, adminId) then Err(InvalidArgument)
    else
      var id := s.proximoId;
      var n := Noticia(dados.categoriaId, adminId, dados.status.GetOr(NOTICIA_RASCUNHO), dados.destaque.GetOr(false), dados.visualizacoes.GetOr(0));
      Ok(Novo(s.(noticias := s.noticias[id := n], proximoId := id + 1), id))
  }

  /** publicar: the status becomes 'publicada'. */
  function Publicar(s: Store, id: Id): (r: Result<Store>)
    ensures r == Err(NotFound) <==> id !in s.noticias
    ensures r.Ok? ==>
      && SoMudaLinha(s.noticias, r.value.noticias, id)
      && r.value == s.(noticias := r.value.noticias)
      && r.value.noticias[id] == s.noticias[id].(status := NOTICIA_PUBLICADA)
  {
    if id !in s.noticias then Err(NotFound)
    else Ok(s.(noticias := s.noticias[id := s.noticias[id].(status := NOTICIA_PUBLICADA)]))
  }

  /** Publishing twice is the same as publishing once. */
  lemma PublicarIdempotente(s: Store, id: Id)
    requires id in s.noticias
    ensures Publicar(s, id).Ok?
    ensures Publicar(Publicar(s, id).value, id) == Publicar(s, id)
  {
    var s1 := Publicar(s, id).value;
    assert s1.noticias[id := s1.noticias[id].(status := NOTICIA_PUBLICADA)] == s1.noticias;
  }

  /** definirDestaque: the featured flag becomes exactly the given value. */
  function DefinirDestaque(s: Store, id: Id, destaque: bool): (r: Result<Store>)
    ensures r == Err(NotFound) <==> id !in s.noticias
    ensures r.Ok? ==>
      && SoMudaLinha(s.noticias, r.value.noticias, id)
      && r.value == s.(noticias := r.value.noticias)
      && r.value.noticias[id] == s.noticias[id].(destaque := destaque)
  {
    if id !in s.noticias then Err(NotFound)
    else Ok(s.(noticias := s.noticias[id := s.noticias[id].(destaque := destaque)]))
  }

  /** Setting the featured flag back to its old value undoes definirDestaque. */
  lemma DefinirDestaqueDesfeito(s: Store, id: Id, destaque: bool)
    requires id in s.noticias
    ensures DefinirDestaque(s, id, destaque).Ok?
    ensures DefinirDestaque(DefinirDestaque(s, id, destaque).value, id, s.noticias[id].destaque) == Ok(s)
  {
    var s1 := DefinirDestaque(s, id, destaque).value;
    assert s1.noticias[id := s1.noticias[id].(destaque := s.noticias[id].destaque)] == s.noticias;
  }

  /** incrementarVisualizacoes: one more view, nothing else. */
  function IncrementarVisualizacoes(s: Store, id: Id): (r: Result<Store>)
    ensures r == Err(NotFound) <==> id !in s.noticias
    ensures r.Ok? ==>
      && SoMudaLinha(s.noticias, r.value.noticias, id)
      && r.value == s.(noticias := r.value.noticias)
      && r.value.noticias[id].visualizacoes == s.noticias[id].visualizacoes + 1
      && r.value.noticias[id] == s.noticias[id].(visualizacoes := r.value.noticias[id].visualizacoes)
  {
    if id !in s.noticias then Err(NotFound)
    else Ok(s.(noticias := s.noticias[id := s.noticias[id].(visualizacoes := s.noticias[id].visualizacoes + 1)]))
  }

  /** `n` successive views add exactly `n` to the counter. */
  function Visualizar(s: Store, id: Id, n: nat): (r: Result<Store>)
    decreases n
  {
    if n == 0 then (if id in s.noticias then Ok(s) else Err(NotFound))
    else match IncrementarVisualizacoes(s, id)
      case Err(e) => Err(e)
      case Ok(s1) => Visualizar(s1, id, n - 1)
  }

  lemma {:induction false} VisualizarSoma(s: Store, id: Id, n: nat)
    requires id in s.noticias
    ensures Visualizar(s, id, n).Ok?
    ensures id in Visualizar(s, id, n).value.noticias
    ensures Visualizar(s, id, n).value.noticias[id].visualizacoes == s.noticias[id].visualizacoes + n
    ensures Visualizar(s, id, n).value.noticias.Keys == s.noticias.Keys
    decreases n
  {
    if n > 0 {
      var s1 := IncrementarVisualizacoes(s, id).value;
      VisualizarSoma(s1, id, n - 1);
    }
  }

  /** excluir: refused with Conflict while the news item has images. */
  function Excluir(s: Store, id: Id): (r: Result<Store>)
    ensures r == Err(NotFound) <==> id !in s.noticias
    ensures r == Err(Conflict) <==> id in s.noticias && exists i :: i in s.imagens && s.imagens[i].noticiaId == id
    ensures r.Ok? ==>
      && SemLinha(s.noticias, r.value.noticias, id)
      && r.value == s.(noticias := r.value.noticias)
      && forall i :: i in r.value.imagens ==> r.value.imagens[i].noticiaId != id
  {
    if id !in s.noticias then Err(NotFound)
    else if exists i :: i in s.imagens && s.imagens[i].noticiaId == id then Err(Conflict)
    else Ok(s.(noticias := s.noticias - {id}))
  }
}

=== FILE: outcomes.dfy ===
/** Failure-carrying values shared by every service of the model. */
module Outcomes {

  /** The three exception kinds the services throw, as the controllers map them:
      NotFound is a ModelNotFoundException (404), InvalidArgument an
      InvalidArgumentException (400) and Conflict a plain RuntimeException (409). */
  datatype Error = NotFound | InvalidArgument | Conflict

  /** An optional input field: None is a key that is absent (or null) in the
      request array, so that `isset` is false and `??` falls back. */
  datatype Option<+T> = None | Some(value: T) {

    /** The value, or `default` when absent: PHP's `$x ?? default`. */
    function GetOr(default: T): T {
      match this
      case Some(v) => v
      case None => default
    }
  }

  /** The outcome of a service call. A failed call carries no store: whatever
      it wrote is rolled back, so the caller keeps the store it had. */
  datatype Result<+T> = Ok(value: T) | Err(error: Error)
}

=== FILE: perfil_service.dfy ===
/** PerfilService: the profiles people hold. Profile names are unique; the
    name 'ADMIN' is what the other services look for. */
module PerfilService {
  import opened Outcomes
  import opened Store

  /** Some profile already carries this name (buscarPorNome found one). */
  predicate NomeEmUso(s: Store, nome: string) {
    exists p :: p in s.perfis && s.perfis[p].nome == nome
  }

  /** buscarPorId: the profile with this id, or NotFound. */
  function BuscarPorId(s: Store, id: Id): (r: Result<Perfil>)
    ensures r.Err? <==> id !in s.perfis
    ensures r.Err? ==> r.error == NotFound
    ensures r.Ok? ==> id in s.perfis && s.perfis[id] == r.value
  {
    if id !in s.perfis then Err(NotFound) else Ok(s.perfis[id])
  }

  /** criar: refused when another profile has the same name. */
  function Criar(s: Store, nome: string): (r: Result<Novo>)
    ensures r.Err? <==> exists p :: p in s.perfis && s.perfis[p].nome == nome
    ensures r.Err? ==> r.error == InvalidArgument
    ensures r.Ok? ==>
      && SoMudaLinha(s.perfis, r.value.store.perfis, r.value.id)
      && r.value.store == s.(perfis := r.value.store.perfis, proximoId := r.value.store.proximoId)
      && r.value.store.perfis[r.value.id] == Perfil(nome)
    ensures r.Ok? && Fresco(s) ==> r.value.id !in s.perfis && Fresco(r.value.store)
    ensures r.Ok? && NomesPerfilUnicos(s) ==> NomesPerfilUnicos(r.value.store)
  {
    if NomeEmUso(s, nome) then Err(InvalidArgument)
    else
      var id := s.proximoId;
      Ok(Novo(s.(perfis := s.perfis[id := Perfil(nome)], proximoId := id + 1), id))
  }

  /** atualizar: the name is checked only when it actually changes. */
  function Atualizar(s: Store, id: Id, nome: Option<string>): (r: Result<Store>)
    ensures r == Err(NotFound) <==> id !in s.perfis
    ensures r == Err(InvalidArgument) <==>
      && id in s.perfis
      && nome.Some? && nome.value != s.perfis[id].nome
      && exists p :: p in s.perfis && s.perfis[p].nome == nome.value
    ensures r.Ok? ==>
      && SoMudaLinha(s.perfis, r.value.perfis, id)
      && r.value == s.(perfis := r.value.perfis)
      && r.value.perfis[id].nome == nome.GetOr(s.perfis[id].nome)
    ensures r.Ok? && NomesPerfilUnicos(s) ==> NomesPerfilUnicos(r.value)
  {
    if id !in s.perfis then Err(NotFound)
    else if nome.Some? && nome.value != s.perfis[id].nome && NomeEmUso(s, nome.value) then Err(InvalidArgument)
    else Ok(s.(perfis := s.perfis[id := Perfil(nome.GetOr(s.perfis[id].nome))]))
  }

  /** excluir: refused with Conflict while any person holds the profile. */
  function Excluir(s: Store, id: Id): (r: Result<Store>)
    ensures r == Err(NotFound) <==> id !in s.perfis
    ensures r == Err(Conflict) <==> id in s.perfis && exists p :: p in s.pessoas && s.pessoas[p].perfilId == id
    ensures r.Ok? ==>
      && SemLinha(s.perfis, r.value.perfis, id)
      && r.value == s.(perfis := r.value.perfis)
      && forall p :: p in r.value.pessoas ==> r.value.pessoas[p].perfilId != id
    ensures r.Ok? && NomesPerfilUnicos(s) ==> NomesPerfilUnicos(r.value)
  {
    if id !in s.perfis then Err(NotFound)
    else if exists p :: p in s.pessoas && s.pessoas[p].perfilId == id then Err(Conflict)
    else Ok(s.(perfis := s.perfis - {id}))
  }

  /** A profile criar has just stored is what buscarPorId finds under the
      returned id, and a second criar with the same name is refused. */
  lemma CriarDepoisBuscar(s: Store, nome: string)
    requires Criar(s, nome).Ok?
    ensures BuscarPorId(Criar(s, nome).value.store, Criar(s, nome).value.id) == Ok(Perfil(nome))
    ensures Criar(Criar(s, nome).value.store, nome) == Err(InvalidArgument)
  {
    var n := Criar(s, nome).value;
    assert n.store.perfis[n.id].nome == nome;
  }
}

=== FILE: pessoa_service.dfy ===
/** PessoaService: people, with their contact data kept unique and their
    deletion blocked while they own records others depend on. */
module PessoaService {
  import opened Outcomes
  import opened Store

  datatype DadosPessoa = DadosPessoa(
    perfilId: Id,
    cpf: Option<string>,
    email: Option<string>,
    dtNascimento: Option<int>,
    ativo: Option<bool>)

  /** A partial update: None leaves the stored column as it is. The birth
      date is nullable, so `Some(None)` is a date sent as null, which skips
      the date check and clears the stored date. */
  datatype AlteracaoPessoa = AlteracaoPessoa(
    perfilId: Option<Id>,
    cpf: Option<string>,
    email: Option<string>,
    dtNascimento: Option<Option<int>>,
    ativo: Option<bool>)

  /** buscarPorCpf found someone with exactly this CPF. */
  predicate CpfEmUso(s: Store, cpf: string) {
    exists p :: p in s.pessoas && s.pessoas[p].cpf == Some(cpf)
  }

  /** buscarPorEmail found someone with exactly this email. */
  predicate EmailEmUso(s: Store, email: string) {
    exists p :: p in s.pessoas && s.pessoas[p].email == Some(email)
  }

  /** Writing row `id` keeps contact data unique when nobody else holds the
      row's filled-in CPF or email. */
  lemma GravarPreservaContatos(s: Store, id: Id, p: Pessoa)
    requires ContatosUnicos(s)
    requires Preenchida(p.cpf) ==> forall k :: k in s.pessoas && k != id ==> s.pessoas[k].cpf != p.cpf
    requires Preenchida(p.email) ==> forall k :: k in s.pessoas && k != id ==> s.pessoas[k].email != p.email
    ensures ContatosUnicos(s.(pessoas := s.pessoas[id := p]))
  {
  }

  /** Inserts `p` under the next id. */
  function Inserir(s: Store, p: Pessoa): (r: Novo)
    ensures r.id == s.proximoId
    ensures SoMudaLinha(s.pessoas, r.store.pessoas, r.id) && r.store.pessoas[r.id] == p
    ensures r.store == s.(pessoas := r.store.pessoas, proximoId := r.store.proximoId)
    ensures Fresco(s) ==> r.id !in s.pessoas && Fresco(r.store)
  {
    var id := s.proximoId;
    var s1 := s.(pessoas := s.pessoas[id := p], proximoId := id + 1);
    assert Fresco(s) ==> Fresco(s1) by { if Fresco(s) { FrescoAoInserir(s, s1); } }
    Novo(s1, id)
  }

  /** criar: the profile must exist; a filled-in CPF or email must be new;
      a birth date must not lie after `now`. ativo defaults to true. */
  function Criar(s: Store, dados: DadosPessoa, now: int): (r: Result<Novo>)
    ensures r == Err(NotFound) <==> dados.perfilId !in s.perfis
    ensures r == Err(InvalidArgument) <==>
      && dados.perfilId in s.perfis
      && (|| (Preenchida(dados.cpf) && exists p :: p in s.pessoas && s.pessoas[p].cpf == dados.cpf)
          || (Preenchida(dados.email) && exists p :: p in s.pessoas && s.pessoas[p].email == dados.email)
          || (dados.dtNascimento.Some? && dados.dtNascimento.value > now))
    ensures r.Ok? ==>
      && SoMudaLinha(s.pessoas, r.value.store.pessoas, r.value.id)
      && r.value.store == s.(pessoas := r.value.store.pessoas, proximoId := r.value.store.proximoId)
      && r.value.store.pessoas[r.value.id] == Pessoa(dados.perfilId, dados.cpf, dados.email, dados.dtNascimento, dados.ativo.GetOr(true))
    ensures r.Ok? && Fresco(s) ==> r.value.id !in s.pessoas && Fresco(r.value.store)
  {
    if dados.perfilId !in s.perfis then Err(NotFound)
    else if Preenchida(dados.cpf) && CpfEmUso(s, dados.cpf.value) then Err(InvalidArgument)
    else if Preenchida(dados.email) && EmailEmUso(s, dados.email.value) then Err(InvalidArgument)
    else if dados.dtNascimento.Some? && dados.dtNascimento.value > now then Err(InvalidArgument)
    else Ok(Inserir(s, Pessoa(dados.perfilId, dados.cpf, dados.email, dados.dtNascimento, dados.ativo.GetOr(true))))
  }

  /** A successful criar keeps CPF and email unique: it refuses any
      filled-in value somebody already holds. */
  lemma CriarPreservaContatos(s: Store, dados: DadosPessoa, now: int)
    requires ContatosUnicos(s)
    ensures Criar(s, dados, now).Ok? ==> ContatosUnicos(Criar(s, dados, now).value.store)
  {
    if Criar(s, dados, now).Ok? {
      var r := Criar(s, dados, now).value;
      GravarPreservaContatos(s, r.id, r.store.pessoas[r.id]);
      assert r.store == s.(pessoas := s.pessoas[r.id := r.store.pessoas[r.id]], proximoId := r.store.proximoId);
    }
  }

  /** atualizar: a supplied profile must exist; a supplied CPF or email that
      differs from the person's current one must not be held by anyone; a
      supplied birth date must not lie after `now`. */
  function Atualizar(s: Store, id: Id, dados: AlteracaoPessoa, now: int): (r: Result<Store>)
    ensures r == Err(NotFound) <==>
      id !in s.pessoas || (dados.perfilId.Some? && dados.perfilId.value !in s.perfis)
    ensures r == Err(InvalidArgument) <==>
      && id in s.pessoas
      && (dados.perfilId.Some? ==> dados.perfilId.value in s.perfis)
      && (|| (dados.cpf.Some? && dados.cpf != s.pessoas[id].cpf
              && exists p :: p in s.pessoas && s.pessoas[p].cpf == dados.cpf)
          || (dados.email.Some? && dados.email != s.pessoas[id].email
              && exists p :: p in s.pessoas && s.pessoas[p].email == dados.email)
          || (dados.dtNascimento.Some? && dados.dtNascimento.value.Some? && dados.dtNascimento.value.value > now))
    ensures r.Ok? ==>
      var p := s.pessoas[id];
      && SoMudaLinha(s.pessoas, r.value.pessoas, id)
      && r.value == s.(pessoas := r.value.pessoas)
      && r.value.pessoas[id] == Pessoa(
           dados.perfilId.GetOr(p.perfilId),
           if dados.cpf.Some? then dados.cpf else p.cpf,
           if dados.email.Some? then dados.email else p.email,
           dados.dtNascimento.GetOr(p.dtNascimento),
           dados.ativo.GetOr(p.ativo))
  {
    if id !in s.pessoas then Err(NotFound)
    else if dados.perfilId.Some? && dados.perfilId.value !in s.perfis then Err(NotFound)
    else
      var p := s.pessoas[id];
      if dados.cpf.Some? && dados.cpf != p.cpf && CpfEmUso(s, dados.cpf.value) then Err(InvalidArgument)
      else if dados.email.Some? && dados.email != p.email && EmailEmUso(s, dados.email.value) then Err(InvalidArgument)
      else if dados.dtNascimento.Some? && dados.dtNascimento.value.Some? && dados.dtNascimento.value.value > now then Err(InvalidArgument)
      else
        var p' := Pessoa(
          dados.perfilId.GetOr(p.perfilId),
          if dados.cpf.Some? then dados.cpf else p.cpf,
          if dados.email.Some? then dados.email else p.email,
          dados.dtNascimento.GetOr(p.dtNascimento),
          dados.ativo.GetOr(p.ativo));
        Ok(s.(pessoas := s.pessoas[id := p']))
  }

  /** A successful atualizar keeps CPF and email unique: a changed value
      is refused when somebody holds it, and an unchanged one was already
      unique. */
  lemma AtualizarPreservaContatos(s: Store, id: Id, dados: AlteracaoPessoa, now: int)
    requires ContatosUnicos(s)
    ensures Atualizar(s, id, dados, now).Ok? ==> ContatosUnicos(Atualizar(s, id, dados, now).value)
  {
    if Atualizar(s, id, dados, now).Ok? {
      var s' := Atualizar(s, id, dados, now).value;
      GravarPreservaContatos(s, id, s'.pessoas[id]);
      assert s' == s.(pessoas := s.pessoas[id := s'.pessoas[id]]);
    }
  }

  /** ativar (ativo = true) and desativar (ativo = false): only that flag of
      that person changes. */
  function DefinirAtivo(s: Store, id: Id, ativo: bool): (r: Result<Store>)
    ensures r == Err(NotFound) <==> id !in s.pessoas
    ensures r.Ok? ==>
      && SoMudaLinha(s.pessoas, r.value.pessoas, id)
      && r.value == s.(pessoas := r.value.pessoas)
      && r.value.pessoas[id] == s.pessoas[id].(ativo := ativo)
    ensures r.Ok? && ContatosUnicos(s) ==> ContatosUnicos(r.value)
  {
    if id !in s.pessoas then Err(NotFound)
    else Ok(s.(pessoas := s.pessoas[id := s.pessoas[id].(ativo := ativo)]))
  }

  /** Setting the flag twice is the same as setting it once. */
  lemma DefinirAtivoIdempotente(s: Store, id: Id, ativo: bool)
    requires id in s.pessoas
    ensures DefinirAtivo(s, id, ativo).Ok?
    ensures DefinirAtivo(DefinirAtivo(s, id, ativo).value, id, ativo) == DefinirAtivo(s, id, ativo)
  {
    var s1 := DefinirAtivo(s, id, ativo).value;
    assert s1.pessoas[id := s1.pessoas[id].(ativo := ativo)] == s1.pessoas;
  }

  /** What blocks deletion, in the order it is checked: donations, then
      missions, news and collection points the person created. */
  predicate Dependente(s: Store, id: Id) {
    || (exists d :: d in s.doacoes && s.doacoes[d].pessoaId == id)
    || (exists m :: m in s.missoes && s.missoes[m].adminCriadorId == id)
    || (exists n :: n in s.noticias && s.noticias[n].adminAutorId == id)
    || (exists p :: p in s.pontos && s.pontos[p].adminCriadorId == id)
  }

  /** The person and, through the cascading foreign keys, the person's
      volunteer records and their applications. */
  function SemPessoa(s: Store, id: Id): (r: Store)
    ensures SemLinha(s.pessoas, r.pessoas, id)
    ensures r == s.(pessoas := r.pessoas, voluntarios := r.voluntarios, candidaturas := r.candidaturas)
    ensures forall v :: v in r.voluntarios <==> v in s.voluntarios && s.voluntarios[v].pessoaId != id
    ensures forall v :: v in r.voluntarios ==> r.voluntarios[v] == s.voluntarios[v]
    ensures forall c :: c in r.candidaturas <==>
      && c in s.candidaturas
      && !(s.candidaturas[c].voluntarioId in s.voluntarios
           && s.voluntarios[s.candidaturas[c].voluntarioId].pessoaId == id)
    ensures forall c :: c in r.candidaturas ==> r.candidaturas[c] == s.candidaturas[c]
  {
    var candidaturas := map c | c in s.candidaturas
      && !(s.candidaturas[c].voluntarioId in s.voluntarios && s.voluntarios[s.candidaturas[c].voluntarioId].pessoaId == id)
      :: s.candidaturas[c];
    var voluntarios := map v | v in s.voluntarios && s.voluntarios[v].pessoaId != id :: s.voluntarios[v];
    s.(pessoas := s.pessoas - {id}, voluntarios := voluntarios, candidaturas := candidaturas)
  }

  /** excluir: refused with Conflict while the person has donations, or
      created missions, news or collection points. Otherwise the person goes,
      and the cascading foreign keys take the person's volunteer record and
      that record's applications with it. The cascade bypasses
      CandidaturaMissaoService, so no mission counter is given back. */
  function Excluir(s: Store, id: Id): (r: Result<Store>)
    ensures r == Err(NotFound) <==> id !in s.pessoas
    ensures r == Err(Conflict) <==>
      && id in s.pessoas
      && (|| (exists d :: d in s.doacoes && s.doacoes[d].pessoaId == id)
          || (exists m :: m in s.missoes && s.missoes[m].adminCriadorId == id)
          || (exists n :: n in s.noticias && s.noticias[n].adminAutorId == id)
          || (exists p :: p in s.pontos && s.pontos[p].adminCriadorId == id))
    ensures r.Ok? ==> r.value == SemPessoa(s, id)
    ensures r.Ok? && CapacidadeOk(s) ==> CapacidadeOk(r.value)
    ensures r.Ok? && ContatosUnicos(s) ==> ContatosUnicos(r.value)
    ensures r.Ok? && UmVoluntarioPorPessoa(s) ==> UmVoluntarioPorPessoa(r.value)
    ensures r.Ok? && CandidaturaUnicaPorPar(s) ==> CandidaturaUnicaPorPar(r.value)
  {
    if id !in s.pessoas then Err(NotFound)
    else if Dependente(s, id) then Err(Conflict)
    else Ok(SemPessoa(s, id))
  }

  /** Deleting a person whose volunteer record held an approved application
      keeps that mission's vagas_preenchidas as it was, although the
      application is gone. */
  lemma ExcluirNaoLiberaVagas(s: Store, id: Id, c: Id)
    requires id in s.pessoas && !Dependente(s, id)
    requires c in s.candidaturas && s.candidaturas[c].voluntarioId in s.voluntarios
    requires s.voluntarios[s.candidaturas[c].voluntarioId].pessoaId == id
    ensures Excluir(s, id).Ok?
    ensures c !in Excluir(s, id).value.candidaturas
    ensures Excluir(s, id).value.missoes == s.missoes
  {
  }
}

=== FILE: ponto_coleta_service.dfy ===
/** PontoColetaService: collection points, created by administrators in
    city 1, switched on and off, and deleted only when nothing refers to them. */
module PontoColetaService {
  import opened Outcomes
  import opened Store
  import Sets

  /** A partial update: a supplied city is replaced by city 1. */
  datatype AlteracaoPonto = AlteracaoPonto(cidadesId: Option<Id>, ativo: Option<bool>)

  predicate Ativo(p: PontoColeta) {
    p.ativo
  }

  /** listarAtivos: exactly the active points. */
  method ListarAtivos(s: Store) returns (r: set<Id>)
    ensures forall id :: id in r <==> id in s.pontos && s.pontos[id].ativo
  {
    r := Sets.Filter(s.pontos, Ativo);
  }

  /** criar: city 1 and the admin must exist and the admin's profile must be
      ADMIN. The point is placed in city 1, credited to the admin and active
      unless the request says otherwise. */
  function Criar(s: Store, adminId: Id, ativo: Option<bool>): (r: Result<Novo>)
    ensures r == Err(NotFound) <==> CIDADE_PADRAO !in s.cidades || adminId !in s.pessoas
    ensures r == Err(InvalidArgument) <==> CIDADE_PADRAO in s.cidades && adminId in s.pessoas && !EhAdmin(s, adminId)
    ensures r.Ok? ==>
      && adminId in s.pessoas && EhAdmin(s, adminId)
      && SoMudaLinha(s.pontos, r.value.store.pontos, r.value.id)
      && r.value.store == s.(pontos := r.value.store.pontos, proximoId := r.value.store.proximoId)
      && r.value.store.pontos[r.value.id] == PontoColeta(CIDADE_PADRAO, ativo.GetOr(true), adminId)
    ensures r.Ok? && Fresco(s) ==> r.value.id !in s.pontos && Fresco(r.value.store)
    ensures r.Ok? && PontosNaCidadePadrao(s) ==> PontosNaCidadePadrao(r.value.store)
  {
    if CIDADE_PADRAO !in s.cidades then Err(NotFound)
    else if adminId !in s.pessoas then Err(NotFound)
    else if !EhAdmin(s, adminId) then Err(InvalidArgument)
    else
      var id := s.proximoId;
      Ok(Novo(s.(pontos := s.pontos[id := PontoColeta(CIDADE_PADRAO, ativo.GetOr(true), adminId)], proximoId := id + 1), id))
  }

  /** atualizar: any supplied city is read as city 1; nothing is checked. */
  function Atualizar(s: Store, id: Id, dados: AlteracaoPonto): (r: Result<Store>)
    ensures r == Err(NotFound) <==> id !in s.pontos
    ensures r.Ok? ==>
      var p := s.pontos[id];
      && SoMudaLinha(s.pontos, r.value.pontos, id)
      && r.value == s.(pontos := r.value.pontos)
      && r.value.pontos[id] == PontoColeta(if dados.cidadesId.Some? then CIDADE_PADRAO else p.cidadesId, dados.ativo.GetOr(p.ativo), p.adminCriadorId)
    ensures r.Ok? && PontosNaCidadePadrao(s) ==> PontosNaCidadePadrao(r.value)
  {
    if id !in s.pontos then Err(NotFound)
    else
      var p := s.pontos[id];
      Ok(s.(pontos := s.pontos[id := PontoColeta(if dados.cidadesId.Some? then CIDADE_PADRAO else p.cidadesId, dados.ativo.GetOr(p.ativo), p.adminCriadorId)]))
  }

  /** ativar (ativo = true) and desativar (ativo = false). An inactive point
      takes no new donations. */
  function DefinirAtivo(s: Store, id: Id, ativo: bool): (r: Result<Store>)
    ensures r == Err(NotFound) <==> id !in s.pontos
    ensures r.Ok? ==>
      && SoMudaLinha(s.pontos, r.value.pontos, id)
      && r.value == s.(pontos := r.value.pontos)
      && r.value.pontos[id] == s.pontos[id].(ativo := ativo)
    ensures r.Ok? && PontosNaCidadePadrao(s) ==> PontosNaCidadePadrao(r.value)
  {
    if id !in s.pontos then Err(NotFound)
    else Ok(s.(pontos := s.pontos[id := s.pontos[id].(ativo := ativo)]))
  }

  /** Setting the flag twice is the same as setting it once. */
  lemma DefinirAtivoIdempotente(s: Store, id: Id, ativo: bool)
    requires id in s.pontos
    ensures DefinirAtivo(s, id, ativo).Ok?
    ensures DefinirAtivo(DefinirAtivo(s, id, ativo).value, id, ativo) == DefinirAtivo(s, id, ativo)
  {
    var s1 := DefinirAtivo(s, id, ativo).value;
    assert s1.pontos[id := s1.pontos[id].(ativo := ativo)] == s1.pontos;
  }

  /** excluir: refused with Conflict while the point has needs, then while it
      has donations; otherwise only the point goes. */
  function Excluir(s: Store, id: Id): (r: Result<Store>)
    ensures r == Err(NotFound) <==> id !in s.pontos
    ensures r == Err(Conflict) <==>
      && id in s.pontos
      && (|| (exists n :: n in s.necessidades && s.necessidades[n].pontoColetaId == id)
          || (exists d :: d in s.doacoes && s.doacoes[d].pontoColetaId == id))
    ensures r.Ok? ==>
      && SemLinha(s.pontos, r.value.pontos, id)
      && r.value == s.(pontos := r.value.pontos)
      && (forall n :: n in r.value.necessidades ==> r.value.necessidades[n].pontoColetaId != id)
      && (forall d :: d in r.value.doacoes ==> r.value.doacoes[d].pontoColetaId != id)
    ensures r.Ok? && PontosNaCidadePadrao(s) ==> PontosNaCidadePadrao(r.value)
  {
    if id !in s.pontos then Err(NotFound)
    else if exists n :: n in s.necessidades && s.necessidades[n].pontoColetaId == id then Err(Conflict)
    else if exists d :: d in s.doacoes && s.doacoes[d].pontoColetaId == id then Err(Conflict)
    else Ok(s.(pontos := s.pontos - {id}))
  }
}

=== FILE: sets.dfy ===
/** Extremes of finite sets of integers, and a scan that selects the keys of a
    table whose rows satisfy a predicate (a `where` query). */
module Sets {

  /** A non-empty set has a member. */
  lemma NonEmpty<T>(xs: set<T>)
    requires xs != {}
    ensures exists x :: x in xs
  {
    if !(exists x :: x in xs) {
      assert false;
    }
  }

  lemma {:induction false} MaxExists(xs: set<int>) returns (m: int)
    requires xs != {}
    ensures m in xs && forall y :: y in xs ==> y <= m
    decreases xs
  {
    assert exists x :: x in xs by {
      if !(exists x :: x in xs) {
        assert false;
      }
    }
    var x :| x in xs;
    var rest := xs - {x};
    if rest == {} {
      assert xs == {x};
      m := x;
    } else {
      var r := MaxExists(rest);
      m := if x <= r then r else x;
      forall y | y in xs ensures y <= m {
        if y != x {
          assert y in rest;
        }
      }
    }
  }

  lemma {:induction false} MinExists(xs: set<int>) returns (m: int)
    requires xs != {}
    ensures m in xs && forall y :: y in xs ==> m <= y
    decreases xs
  {
    assert exists x :: x in xs by {
      if !(exists x :: x in xs) {
        assert false;
      }
    }
    var x :| x in xs;
    var rest := xs - {x};
    if rest == {} {
      assert xs == {x};
      m := x;
    } else {
      var r := MinExists(rest);
      m := if r <= x then r else x;
      forall y | y in xs ensures m <= y {
        if y != x {
          assert y in rest;
        }
      }
    }
  }

  /** The largest element: SQL's `max(...)` over a non-empty column. */
  function Max(xs: set<int>): (m: int)
    requires xs != {}
    ensures m in xs
    ensures forall y :: y in xs ==> y <= m
  {
    assert exists m :: m in xs && forall y :: y in xs ==> y <= m by {
      var m := MaxExists(xs);
    }
    var m :| m in xs && forall y :: y in xs ==> y <= m; m
  }

  /** The smallest element. */
  function Min(xs: set<int>): (m: int)
    requires xs != {}
    ensures m in xs
    ensures forall y :: y in xs ==> m <= y
  {
    assert exists m :: m in xs && forall y :: y in xs ==> m <= y by {
      var m := MinExists(xs);
    }
    var m :| m in xs && forall y :: y in xs ==> m <= y; m
  }

  /** One more than every key of a table: an upper bound for scans by id. */
  function KeyBound<T>(m: map<nat, T>): (b: nat)
    ensures forall k :: k in m ==> k < b
    ensures m == map[] ==> b == 0
    ensures m != map[] ==> b - 1 in m
  {
    if m == map[] then 0 else Max(m.Keys) + 1
  }

  /** The keys of `m` whose rows satisfy `p`, found by visiting every row once. */
  method Filter<T>(m: map<nat, T>, p: T -> bool) returns (r: set<nat>)
    ensures forall k :: k in r <==> k in m && p(m[k])
  {
    r := {};
    var rest := m.Keys;
    while rest != {}
      invariant rest <= m.Keys
      invariant forall k :: k in r <==> k in m && k !in rest && p(m[k])
      decreases rest
    {
      NonEmpty(rest);
      var k :| k in rest;
      if p(m[k]) {
        r := r + {k};
      }
      rest := rest - {k};
    }
  }
}

=== FILE: store.dfy ===
/** The entity store the services work on: one finite map per table, keyed by
    id, plus the reference tables the services only test for existence. Only
    the columns some service reads or writes are kept; free-text columns
    (names, descriptions, URLs) and timestamps pass through unchanged and are
    left out. */
module Store {
  import opened Outcomes

  /** A primary key (auto-increment, so never negative). */
  type Id = nat

  /** A decimal(10,2) quantity, held exactly as a whole number of hundredths. */
  type Centesimos = int

  /** The profile name that marks an administrator. */
  const ADMIN := "ADMIN"

  /** The one city every mission, address and collection point is given. */
  const CIDADE_PADRAO: Id := 1

  // Status values the services write.
  const MISSAO_ATIVA := "ativa"
  const MISSAO_FINALIZADA := "finalizada"
  const MISSAO_CANCELADA := "cancelada"
  const CANDIDATURA_PENDENTE := "pendente"
  const CANDIDATURA_APROVADA := "aprovada"
  const CANDIDATURA_REJEITADA := "rejeitada"
  const CANDIDATURA_CONCLUIDA := "concluida"
  const VOLUNTARIO_PENDENTE := "pendente"
  const VOLUNTARIO_APROVADO := "aprovado"
  const VOLUNTARIO_REJEITADO := "rejeitado"
  const DOACAO_PENDENTE := "pendente"
  const DOACAO_ENTREGUE := "entregue"
  const DOACAO_CANCELADA := "cancelada"
  const NOTICIA_RASCUNHO := "rascunho"
  const NOTICIA_PUBLICADA := "publicada"
  const PRIORIDADE_MEDIA := "media"

  datatype Perfil = Perfil(nome: string)

  datatype Pessoa = Pessoa(
    perfilId: Id,
    cpf: Option<string>,
    email: Option<string>,
    dtNascimento: Option<int>,
    ativo: bool)

  datatype Voluntario = Voluntario(pessoaId: Id, status: string, obs: Option<string>)

  datatype Missao = Missao(
    categoriaId: Id,
    cidadesId: Id,
    dtInicio: int,
    dtFim: Option<int>,
    vagasTotais: int,
    vagasPreenchidas: int,
    adminCriadorId: Id,
    status: string)

  datatype Candidatura = Candidatura(
    missaoId: Id,
    voluntarioId: Id,
    status: string,
    avaliacao: Option<int>,
    obsAvaliacao: Option<string>)

  datatype PontoColeta = PontoColeta(cidadesId: Id, ativo: bool, adminCriadorId: Id)

  datatype Necessidade = Necessidade(
    pontoColetaId: Id,
    tipoItemId: Id,
    quantidadeNecessaria: Centesimos,
    quantidadeRecebida: Centesimos,
    prioridade: string,
    ativo: bool)

  datatype Doacao = Doacao(pessoaId: Id, pontoColetaId: Id, status: string)

  datatype ItemDoacao = ItemDoacao(doacaoId: Id, tipoItemId: Id, quantidade: Centesimos)

  datatype Noticia = Noticia(
    categoriaId: Id,
    adminAutorId: Id,
    status: string,
    destaque: bool,
    visualizacoes: int)

  datatype ImagemNoticia = ImagemNoticia(noticiaId: Id, ordem: int, principal: bool)

  datatype Endereco = Endereco(pessoaId: Id, cidadesId: Id, principal: bool)

  /** The whole database. `proximoId` is the auto-increment counter: every
      insert takes it and moves it on, so an id is never handed out twice. */
  datatype Store = Store(
    perfis: map<Id, Perfil>,
    pessoas: map<Id, Pessoa>,
    voluntarios: map<Id, Voluntario>,
    missoes: map<Id, Missao>,
    candidaturas: map<Id, Candidatura>,
    pontos: map<Id, PontoColeta>,
    necessidades: map<Id, Necessidade>,
    doacoes: map<Id, Doacao>,
    itens: map<Id, ItemDoacao>,
    noticias: map<Id, Noticia>,
    imagens: map<Id, ImagemNoticia>,
    enderecos: map<Id, Endereco>,
    categoriasMissao: set<Id>,
    categoriasNoticia: set<Id>,
    tiposItem: set<Id>,
    cidades: set<Id>,
    proximoId: Id)

  /** A created row: the new store and the id the row received. */
  datatype Novo = Novo(store: Store, id: Id)

  /** PHP truthiness of an optional string (`if ($obs)`, `!empty($cpf)`):
      null, "" and "0" are all false. */
  predicate Preenchida(v: Option<string>) {
    v.Some? && v.value != "" && v.value != "0"
  }

  /** `$pessoa->perfil->nome === 'ADMIN'` for an existing person. A profile
      row the foreign key guarantees but the store lacks counts as not ADMIN. */
  predicate EhAdmin(s: Store, pessoaId: Id)
    requires pessoaId in s.pessoas
  {
    var p := s.pessoas[pessoaId];
    p.perfilId in s.perfis && s.perfis[p.perfilId].nome == ADMIN
  }

  /** The donation has been delivered. A donation row that is not there
      reads as not delivered. */
  predicate DoacaoEntregue(s: Store, doacaoId: Id) {
    doacaoId in s.doacoes && s.doacoes[doacaoId].status == DOACAO_ENTREGUE
  }

  /** Every key is below `n`. */
  ghost predicate Abaixo<T>(m: map<Id, T>, n: Id) {
    forall k :: k in m ==> k < n
  }

  /** The auto-increment counter is ahead of every id in use, so the next
      insert cannot overwrite a row. */
  ghost predicate Fresco(s: Store) {
    && Abaixo(s.perfis, s.proximoId)
    && Abaixo(s.pessoas, s.proximoId)
    && Abaixo(s.voluntarios, s.proximoId)
    && Abaixo(s.missoes, s.proximoId)
    && Abaixo(s.candidaturas, s.proximoId)
    && Abaixo(s.pontos, s.proximoId)
    && Abaixo(s.necessidades, s.proximoId)
    && Abaixo(s.doacoes, s.proximoId)
    && Abaixo(s.itens, s.proximoId)
    && Abaixo(s.noticias, s.proximoId)
    && Abaixo(s.imagens, s.proximoId)
    && Abaixo(s.enderecos, s.proximoId)
  }

  /** A store that differs from a fresh one only by rows inserted at the
      counter, with the counter moved past them, is fresh. */
  lemma FrescoAoInserir(s: Store, s': Store)
    requires Fresco(s) && s'.proximoId == s.proximoId + 1
    requires s'.perfis.Keys <= s.perfis.Keys + {s.proximoId}
    requires s'.pessoas.Keys <= s.pessoas.Keys + {s.proximoId}
    requires s'.voluntarios.Keys <= s.voluntarios.Keys + {s.proximoId}
    requires s'.missoes.Keys <= s.missoes.Keys + {s.proximoId}
    requires s'.candidaturas.Keys <= s.candidaturas.Keys + {s.proximoId}
    requires s'.pontos.Keys <= s.pontos.Keys + {s.proximoId}
    requires s'.necessidades.Keys <= s.necessidades.Keys + {s.proximoId}
    requires s'.doacoes.Keys <= s.doacoes.Keys + {s.proximoId}
    requires s'.itens.Keys <= s.itens.Keys + {s.proximoId}
    requires s'.noticias.Keys <= s.noticias.Keys + {s.proximoId}
    requires s'.imagens.Keys <= s.imagens.Keys + {s.proximoId}
    requires s'.enderecos.Keys <= s.enderecos.Keys + {s.proximoId}
    ensures Fresco(s')
  {
  }

  /** A fresh store whose counter moved forward and whose donations and
      items stay below the new counter is fresh. */
  lemma FrescoAoGravar(s: Store, s': Store)
    requires Fresco(s) && s.proximoId <= s'.proximoId
    requires s' == s.(doacoes := s'.doacoes, itens := s'.itens, proximoId := s'.proximoId)
    requires Abaixo(s'.doacoes, s'.proximoId) && Abaixo(s'.itens, s'.proximoId)
    ensures Fresco(s')
  {
  }

  /** `m2` is `m` with the row `id` inserted or replaced, and every other row kept. */
  ghost predicate SoMudaLinha<T>(m: map<Id, T>, m2: map<Id, T>, id: Id) {
    && m2.Keys == m.Keys + {id}
    && forall k :: k in m && k != id ==> m2[k] == m[k]
  }

  /** `m2` is `m` without the row `id`. */
  ghost predicate SemLinha<T>(m: map<Id, T>, m2: map<Id, T>, id: Id) {
    && m2.Keys == m.Keys - {id}
    && forall k :: k in m2 ==> m2[k] == m[k]
  }

  // ---------------------------------------------------------------------
  // Store-wide invariants the services promise to keep.

  /** Every mission has 0 <= vagas_preenchidas <= vagas_totais. */
  ghost predicate CapacidadeOk(s: Store) {
    forall id :: id in s.missoes ==>
      0 <= s.missoes[id].vagasPreenchidas <= s.missoes[id].vagasTotais
  }

  /** Every need has quantidade_recebida <= quantidade_necessaria. */
  ghost predicate RecebidaOk(s: Store) {
    forall id :: id in s.necessidades ==>
      s.necessidades[id].quantidadeRecebida <= s.necessidades[id].quantidadeNecessaria
  }

  /** Every donation item carries a positive quantity. */
  ghost predicate ItensPositivos(s: Store) {
    forall id :: id in s.itens ==> s.itens[id].quantidade > 0
  }

  /** At most one principal image per news item. */
  ghost predicate ImagemPrincipalUnica(s: Store) {
    forall i, j :: i in s.imagens && j in s.imagens && i != j
      && s.imagens[i].principal && s.imagens[j].principal
      ==> s.imagens[i].noticiaId != s.imagens[j].noticiaId
  }

  /** At most one principal address per person. */
  ghost predicate EnderecoPrincipalUnico(s: Store) {
    forall i, j :: i in s.enderecos && j in s.enderecos && i != j
      && s.enderecos[i].principal && s.enderecos[j].principal
      ==> s.enderecos[i].pessoaId != s.enderecos[j].pessoaId
  }

  /** At most one volunteer per person. */
  ghost predicate UmVoluntarioPorPessoa(s: Store) {
    forall i, j :: i in s.voluntarios && j in s.voluntarios && i != j
      ==> s.voluntarios[i].pessoaId != s.voluntarios[j].pessoaId
  }

  /** At most one application per (mission, volunteer) pair. */
  ghost predicate CandidaturaUnicaPorPar(s: Store) {
    forall i, j :: i in s.candidaturas && j in s.candidaturas && i != j ==>
      (s.candidaturas[i].missaoId != s.candidaturas[j].missaoId
       || s.candidaturas[i].voluntarioId != s.candidaturas[j].voluntarioId)
  }

  /** No two people share a filled-in CPF, nor a filled-in email. */
  ghost predicate ContatosUnicos(s: Store) {
    && (forall i, j :: i in s.pessoas && j in s.pessoas && i != j && Preenchida(s.pessoas[i].cpf) ==>
          s.pessoas[i].cpf != s.pessoas[j].cpf)
    && (forall i, j :: i in s.pessoas && j in s.pessoas && i != j && Preenchida(s.pessoas[i].email) ==>
          s.pessoas[i].email != s.pessoas[j].email)
  }

  /** No two profiles share a name. */
  ghost predicate NomesPerfilUnicos(s: Store) {
    forall i, j :: i in s.perfis && j in s.perfis && i != j
      ==> s.perfis[i].nome != s.perfis[j].nome
  }

  /** Every collection point lies in city 1, the only city the services assign. */
  ghost predicate PontosNaCidadePadrao(s: Store) {
    forall p :: p in s.pontos ==> s.pontos[p].cidadesId == CIDADE_PADRAO
  }
}

=== FILE: voluntario_service.dfy ===
/** VoluntarioService: a person's volunteer record. A person has at most one;
    the record's status ('pendente', 'aprovado', 'rejeitado') decides whether
    the volunteer may apply to missions. */
module VoluntarioService {
  import opened Outcomes
  import opened Store

  datatype DadosVoluntario = DadosVoluntario(pessoaId: Id, status: Option<string>, obs: Option<string>)

  /** A partial update: None leaves the stored column as it is. The note is
      nullable, so `Some(None)` is a note sent as null, which clears it. */
  datatype AlteracaoVoluntario = AlteracaoVoluntario(pessoaId: Option<Id>, status: Option<string>, obs: Option<Option<string>>)

  /** buscarPorPessoa found a record: some volunteer belongs to the person. */
  predicate TemVoluntario(s: Store, pessoaId: Id) {
    exists v :: v in s.voluntarios && s.voluntarios[v].pessoaId == pessoaId
  }

  /** criar: the person must exist and must not be a volunteer yet. The record
      starts 'pendente' unless a status is given, and keeps the note given. */
  function Criar(s: Store, dados: DadosVoluntario): (r: Result<Novo>)
    ensures r == Err(NotFound) <==> dados.pessoaId !in s.pessoas
    ensures r == Err(InvalidArgument) <==>
      dados.pessoaId in s.pessoas && exists v :: v in s.voluntarios && s.voluntarios[v].pessoaId == dados.pessoaId
    ensures r.Ok? ==>
      && SoMudaLinha(s.voluntarios, r.value.store.voluntarios, r.value.id)
      && r.value.store == s.(voluntarios := r.value.store.voluntarios, proximoId := r.value.store.proximoId)
      && r.value.store.voluntarios[r.value.id] == Voluntario(dados.pessoaId, dados.status.GetOr(VOLUNTARIO_PENDENTE), dados.obs)
    ensures r.Ok? && Fresco(s) ==> r.value.id !in s.voluntarios && Fresco(r.value.store)
    ensures r.Ok? && UmVoluntarioPorPessoa(s) ==> UmVoluntarioPorPessoa(r.value.store)
  {
    if dados.pessoaId !in s.pessoas then Err(NotFound)
    else if TemVoluntario(s, dados.pessoaId) then Err(InvalidArgument)
    else
      var id := s.proximoId;
      Ok(Novo(s.(voluntarios := s.voluntarios[id := Voluntario(dados.pessoaId, dados.status.GetOr(VOLUNTARIO_PENDENTE), dados.obs)],
                 proximoId := id + 1), id))
  }

  /** atualizar: moving the record to another person requires that person to
      exist and to have no record; the supplied columns are then written. */
  function Atualizar(s: Store, id: Id, dados: AlteracaoVoluntario): (r: Result<Store>)
    ensures r == Err(NotFound) <==>
      || id !in s.voluntarios
      || (&& dados.pessoaId.Some? && dados.pessoaId.value != s.voluntarios[id].pessoaId
          && dados.pessoaId.value !in s.pessoas)
    ensures r == Err(InvalidArgument) <==>
      && id in s.voluntarios
      && dados.pessoaId.Some? && dados.pessoaId.value != s.voluntarios[id].pessoaId
      && dados.pessoaId.value in s.pessoas
      && exists v :: v in s.voluntarios && s.voluntarios[v].pessoaId == dados.pessoaId.value
    ensures r.Ok? ==>
      var v := s.voluntarios[id];
      && SoMudaLinha(s.voluntarios, r.value.voluntarios, id)
      && r.value == s.(voluntarios := r.value.voluntarios)
      && r.value.voluntarios[id] == Voluntario(dados.pessoaId.GetOr(v.pessoaId), dados.status.GetOr(v.status), dados.obs.GetOr(v.obs))
    ensures r.Ok? && UmVoluntarioPorPessoa(s) ==> UmVoluntarioPorPessoa(r.value)
  {
    if id !in s.voluntarios then Err(NotFound)
    else
      var v := s.voluntarios[id];
      if dados.pessoaId.Some? && dados.pessoaId.value != v.pessoaId && dados.pessoaId.value !in s.pessoas then Err(NotFound)
      else if dados.pessoaId.Some? && dados.pessoaId.value != v.pessoaId && TemVoluntario(s, dados.pessoaId.value) then Err(InvalidArgument)
      else
        var v' := Voluntario(dados.pessoaId.GetOr(v.pessoaId), dados.status.GetOr(v.status), dados.obs.GetOr(v.obs));
        Ok(s.(voluntarios := s.voluntarios[id := v']))
  }

  /** aprovar: the record becomes 'aprovado'; the volunteer may now apply. */
  function Aprovar(s: Store, id: Id): (r: Result<Store>)
    ensures r == Err(NotFound) <==> id !in s.voluntarios
    ensures r.Ok? ==>
      && SoMudaLinha(s.voluntarios, r.value.voluntarios, id)
      && r.value == s.(voluntarios := r.value.voluntarios)
      && r.value.voluntarios[id] == s.voluntarios[id].(status := VOLUNTARIO_APROVADO)
    ensures r.Ok? && UmVoluntarioPorPessoa(s) ==> UmVoluntarioPorPessoa(r.value)
  {
    if id !in s.voluntarios then Err(NotFound)
    else Ok(s.(voluntarios := s.voluntarios[id := s.voluntarios[id].(status := VOLUNTARIO_APROVADO)]))
  }

  /** rejeitar: the record becomes 'rejeitado'; the note is written only when
      it is truthy, so an empty or "0" note keeps the old one. */
  function Rejeitar(s: Store, id: Id, obs: Option<string>): (r: Result<Store>)
    ensures r == Err(NotFound) <==> id !in s.voluntarios
    ensures r.Ok? ==>
      && SoMudaLinha(s.voluntarios, r.value.voluntarios, id)
      && r.value == s.(voluntarios := r.value.voluntarios)
      && r.value.voluntarios[id].pessoaId == s.voluntarios[id].pessoaId
      && r.value.voluntarios[id].status == VOLUNTARIO_REJEITADO
      && r.value.voluntarios[id].obs == (if Preenchida(obs) then obs else s.voluntarios[id].obs)
    ensures r.Ok? && UmVoluntarioPorPessoa(s) ==> UmVoluntarioPorPessoa(r.value)
  {
    if id !in s.voluntarios then Err(NotFound)
    else
      var v := s.voluntarios[id];
      Ok(s.(voluntarios := s.voluntarios[id := v.(status := VOLUNTARIO_REJEITADO, obs := if Preenchida(obs) then obs else v.obs)]))
  }

  /** Some application references the volunteer. */
  predicate TemCandidaturas(s: Store, voluntarioId: Id) {
    exists c :: c in s.candidaturas && s.candidaturas[c].voluntarioId == voluntarioId
  }

  /** excluir: refused with Conflict while any application references the
      volunteer; otherwise only that record goes. */
  function Excluir(s: Store, id: Id): (r: Result<Store>)
    ensures r == Err(NotFound) <==> id !in s.voluntarios
    ensures r == Err(Conflict) <==>
      id in s.voluntarios && exists c :: c in s.candidaturas && s.candidaturas[c].voluntarioId == id
    ensures r.Ok? ==>
      && SemLinha(s.voluntarios, r.value.voluntarios, id)
      && r.value == s.(voluntarios := r.value.voluntarios)
      && forall c :: c in r.value.candidaturas ==> r.value.candidaturas[c].voluntarioId != id
    ensures r.Ok? && UmVoluntarioPorPessoa(s) ==> UmVoluntarioPorPessoa(r.value)
  {
    if id !in s.voluntarios then Err(NotFound)
    else if TemCandidaturas(s, id) then Err(Conflict)
    else Ok(s.(voluntarios := s.voluntarios - {id}))
  }
}
